=== FILE: README.md ===
# Laravel anti-crawler: a Dafny model of the request pipeline

This project models the per-request decision pipeline of the Laravel
anti-crawler package (`VanToanTG\AntiCrawler`) and proves properties of it. The
pipeline's pieces are:

- an IP whitelist and an IP blocklist;
- a detection log and CAPTCHA challenge records;
- a fixed-window rate limiter on Redis counters;
- a heuristic risk scorer;
- a CAPTCHA service;
- two middlewares that chain all of the above.

Everything the package keeps is explicit state, and every operation is a pure
function of that state and an integer clock `now` in seconds. The state is:

- the whitelist, blocklist, log and challenge tables, each as a sequence of rows;
- the Redis store, as a map from key to a counter with an absolute expiry.

The package configuration is an immutable `Config` record. `Settings.DefaultConfig`
holds the shipped defaults.

| file | module | models |
|---|---|---|
| `basics.dfy` | `Basics` | PHP string helpers (`strtolower`, `str_contains`, `implode`, int-to-string), order-preserving filters, Eloquent `updateOrCreate` as a keyed upsert |
| `settings.dfy` | `Settings` | the configuration record and its shipped defaults |
| `http.dfy` | `Http` | the request as the code reads it: lower-cased header names, PHP truthiness of header values, `auth()->id()` |
| `whitelist.dfy` | `Whitelist` | `IpWhitelist` |
| `blocklist.dfy` | `Blocklist` | `BlockedIp` |
| `detection_log.dfy` | `DetectionLog` | `BotDetectionLog` and its scopes |
| `challenges.dfy` | `Challenges` | `CaptchaChallenge` and its scopes |
| `counters.dfy` | `Counters` | Redis `GET`, `INCR`+`EXPIRE`, `DEL`, `KEYS`+`DEL` |
| `rate_limiter.dfy` | `RateLimiter` | `RateLimitService` |
| `risk_scorer.dfy` | `RiskScorer` | `BotDetectionService` |
| `captcha.dfy` | `CaptchaManager` | `CaptchaService` |
| `detect_bot.dfy` | `BotGate` | the `DetectBot` middleware |
| `anti_crawler.dfy` | `Pipeline` | the `AntiCrawler` middleware |

The model follows the code where it departs from what the package describes of
itself:

- **Violation counter.** It is raised by every forwarded request, in
  `incrementCounter`, and not by rate-limit denials. `blockIpTemporarily`
  only reads it.
- **Tier and keys.** The tier is not part of any counter key.
- **Header tier.** The response headers use the tier as requested. The limit
  check upgrades `anonymous` to `authenticated` for a logged-in user, but the
  headers do not.
- **Frequency reason.** A frequency reason is added only above 50 requests an
  hour.
- **`needsChallenge`.** The middleware never calls it.
- **Challenge checks.** Verification never looks at a challenge's expiry.
  The 30-minute grace of `needsChallenge` counts from the challenge's
  creation, not from its solution.

The `captcha_verified_<ip>` session flag, the random challenge token, the
provider's HTTP reply and the clock are inputs.

## Model

| member | source | states |
|---|---|---|
| Whitelist.IsWhitelisted | src/Models/IpWhitelist.php:25-38 | whitelisted iff a persisted row has exactly that IP or the configured default list contains it; a default IP is whitelisted even with an empty table |
| Whitelist.AddIp | src/Models/IpWhitelist.php:43-52 | upsert keyed by IP: afterwards the IP is whitelisted; rows of other IPs are kept and no other row appears; the one-row-per-IP invariant is kept and the IP's row carries the new description and creator |
| Whitelist.RemoveIp | src/Models/IpWhitelist.php:57-60 | afterwards the IP is whitelisted iff the default list names it; exactly the rows of other IPs remain; uniqueness is kept |
| Blocklist.IsExpired | src/Models/BlockedIp.php:84-99 | a permanent block never expires; an expired block is not active; at `now == expires_at` a block is neither active nor expired |
| Blocklist.IsBlocked | src/Models/BlockedIp.php:26-42 | blocked iff some row for the IP has no expiry or an expiry strictly after now |
| Blocklist.BlockIp | src/Models/BlockedIp.php:47-63 | upsert keyed by IP that overwrites reason, source, user and expiry; other IPs' rows kept; afterwards the IP is blocked at time t iff the new expiry is absent or after t, whatever the old row held |
| Blocklist.UnblockIp | src/Models/BlockedIp.php:68-71 | afterwards the IP is never blocked; exactly the other IPs' rows remain, so no other IP's status changes |
| DetectionLog.HighRisk | src/Models/BotDetectionLog.php:32-35 | keeps exactly the entries scoring at least the threshold (inclusive), in log order, each as often as in the log |
| DetectionLog.ByAction | src/Models/BotDetectionLog.php:40-43 | keeps exactly the entries with that action, in log order, each as often as in the log |
| DetectionLog.ByIp | src/Models/BotDetectionLog.php:48-51 | keeps exactly the entries of that IP, in log order, each as often as in the log |
| DetectionLog.DateRange | src/Models/BotDetectionLog.php:56-65 | both bounds inclusive; without an upper bound every entry from the lower bound on is kept; result is a subsequence of the log holding each selected entry as often as the log does |
| DetectionLog.Recent | src/Models/BotDetectionLog.php:70-73 | keeps exactly the entries created at or after now minus h hours, in log order, each as often as in the log |
| DetectionLog.ChainedScopes | src/Services/BotDetectionService.php:153-156 | chaining byIp, highRisk and recent selects exactly the conjunction of the three conditions, as one order-preserving filter of the log |
| Challenges.Solved | src/Models/CaptchaChallenge.php:37-40 | keeps exactly the solved challenges, in order, each as often as in the table |
| Challenges.Unsolved | src/Models/CaptchaChallenge.php:29-32 | keeps exactly the unsolved challenges, in order, each as often as in the table |
| Challenges.ByIp | src/Models/CaptchaChallenge.php:45-48 | keeps exactly the challenges of that IP, in order, each as often as in the table |
| Challenges.Recent | src/Models/CaptchaChallenge.php:53-56 | keeps exactly the challenges created at or after now minus m minutes, in order, each as often as in the table; solve time plays no part |
| Challenges.SolvedUnsolvedPartition | src/Models/CaptchaChallenge.php:29-40 | solved and unsolved split the challenges: their sizes add up and their multisets add up to the whole |
| Challenges.MarkAsSolved | src/Models/CaptchaChallenge.php:61-67 | the challenge becomes solved with solve time now; token, owner, type and creation time are kept |
| Challenges.ExpiryIgnoresSolving | src/Models/CaptchaChallenge.php:72-75 | expiry does not depend on being solved, is permanent once reached, and starts strictly after creation + 300 s |
| Counters.Get | src/Services/RateLimitService.php:165-170 | a missing or expired key reads as 0 |
| Counters.IncrWithTtl | src/Services/RateLimitService.php:175-181 | the counter rises by one (from 0 when absent), reads so for exactly ttl seconds, then reads 0; no other key changes |
| Counters.Delete | src/Services/RateLimitService.php:134 | the key reads 0 at every time; no other key changes |
| Counters.DeletePrefixed | src/Services/RateLimitService.php:196-202 | no key with the prefix survives; every other key is kept with its value |
| RateLimiter.Bucket | src/Services/RateLimitService.php:155-157 | the bucket is the floor of now over the window length: bucket × length ≤ now < (bucket + 1) × length |
| RateLimiter.KeysDistinct | src/Services/RateLimitService.php:152-160 | the minute key, the hour key and any violation key are pairwise different |
| RateLimiter.BucketKeyInjective | src/Services/RateLimitService.php:152-160 | two counter keys of one identity and window are equal only within one bucket |
| RateLimiter.ResolveTier | src/Services/RateLimitService.php:28-31 | the tier changes only from `anonymous` to `authenticated`, and always does so for a logged-in user |
| RateLimiter.CheckRateLimit | src/Services/RateLimitService.php:23-76 | denied by the minute limit iff the minute count reached it (retry 60, limit per_minute); denied by the hour limit iff the minute limit holds, per_hour is set and reached (retry 3600); otherwise allowed with remaining = limit − count ≥ 1; remaining is 0 on denial |
| RateLimiter.MinuteDenialIgnoresHourCounter | src/Services/RateLimitService.php:39-52 | once the minute limit is reached, the hour counter's content cannot change the verdict |
| RateLimiter.IncrementCounter | src/Services/RateLimitService.php:81-96 | the minute, hour and violation counters each rise by exactly one and every other key is unchanged; the minute cell expires at now + 60, the hour and violation cells at now + 3600 |
| RateLimiter.CounterLifetimes | src/Services/RateLimitService.php:81-96 | read at any later instant, the raised minute count shows for exactly 60 s and the raised hour and violation counts for exactly 3600 s; afterwards each reads 0 |
| RateLimiter.GetRemainingAttempts | src/Services/RateLimitService.php:101-112 | never negative; zero iff the minute count reached the limit; otherwise remaining + count = limit |
| RateLimiter.RateLimitHeaders | src/Services/RateLimitService.php:208-226 | limit is the requested tier's per_minute (fallback 60); remaining equals getRemainingAttempts; reset is a multiple of 60 in (now, now + 60] |
| RateLimiter.BlockIpTemporarily | src/Services/RateLimitService.php:117-136 | below the threshold nothing changes; at or above it an automatic block for `minutes` is upserted, the violation counter reads 0, no other key changes, and the IP is blocked exactly until now + minutes |
| RateLimiter.ClearRateLimit | src/Services/RateLimitService.php:186-203 | every counter key of the IP identity (and of the user identity when logged in) is gone; all other keys, violation counters included, are kept; no key is created |
| RateLimiter.ForwardRepeatedly | src/Services/RateLimitService.php:81-96 | n forwarded requests at one instant raise each of the client's three counters by exactly n |
| RateLimiter.MinuteLimitBoundary | src/Services/RateLimitService.php:39-75 | from a fresh minute bucket the first L requests are allowed (while the hour limit holds) with L − k left, and request L + 1 is denied with retry 60 |
| RateLimiter.FirstDenialAutoBlocks | src/Services/RateLimitService.php:117-147 | because forwarded requests raise the violation counter, when per_minute ≥ the auto-block threshold the first minute denial already blocks the IP |
| RateLimiter.AllowanceReachesLimits | src/Services/RateLimitService.php:39-96 | using up a fresh minute's allowance brings the minute count to the limit and the violation count to at least the auto-block threshold, when the limit is at least that threshold |
| RateLimiter.DenialWithViolationsBlocks | src/Services/RateLimitService.php:39-136 | a client at its minute limit whose violations reached the threshold is denied, and the escalation blocks its IP |
| RateLimiter.NewMinuteBucketStartsFresh | src/Services/RateLimitService.php:152-160 | counting a request in one minute bucket leaves every other bucket's counter unchanged |
| RateLimiter.HeadersUseRequestedTier | src/Services/RateLimitService.php:208-219 | with the shipped limits a logged-in user on the default tier is checked against 120 per minute but shown a limit of 60 |
| RiskScorer.MatchesAnyPattern | src/Services/BotDetectionService.php:100-129 | true iff some pattern, lower-cased, occurs in the lower-cased user agent |
| RiskScorer.BehavioralScore | src/Services/BotDetectionService.php:134-163 | bonus in [0, 45]; zero iff at most 30 recent requests and no high-risk history; more than 30, 50 and 100 recent requests give 10, 15 and 25 (only the highest tier); each high-risk entry gives 5, capped at 20 |
| RiskScorer.BehavioralScoreAdditive | src/Services/BotDetectionService.php:134-163 | the frequency bonus and the history bonus add up independently |
| RiskScorer.Score | src/Services/BotDetectionService.php:60-95 | at most 100; equal to the uncapped sum unless capped; never above the sum; non-negative when the weights are |
| RiskScorer.ScoreMonotone | src/Services/BotDetectionService.php:60-95 | with non-negative weights, a request showing every signal another shows (and at least its history) scores at least as high |
| RiskScorer.Reasons | src/Services/BotDetectionService.php:168-193 | each user-agent and header reason appears iff its signal fired, in evaluation order; the frequency reason appears iff more than 50 recent requests and carries that count; Referer and history are never named |
| RiskScorer.DetectBot | src/Services/BotDetectionService.php:14-55 | whitelisted IP first (not a bot, score 0); then a legitimate-crawler user agent (bot, score 0, winning over the blacklist); otherwise block iff score ≥ risk threshold iff is_bot, challenge iff captcha threshold ≤ score < risk threshold, and the reason is `getDetectionReason` of the request's signals and score; never both; score ≤ 100 |
| RiskScorer.DetectionReason | src/Services/BotDetectionService.php:168-199 | "Risk score: N" exactly when no named signal fired (and then nothing else starts that way); otherwise the text starts with the first reason in evaluation order and contains every fired reason's text |
| RiskScorer.JoinedReasons | src/Services/BotDetectionService.php:198 | the reasons joined by ", " start with the first reason's text, contain every reason's text, and never start like the score fallback |
| RiskScorer.NamedIffReasons | src/Services/BotDetectionService.php:168-194 | some reason is collected exactly when the user agent is blacklisted, an Accept* header is missing, or more than 50 recent requests were seen |
| RiskScorer.UnnamedVerdictReportsScore | src/Services/BotDetectionService.php:194-196 | a scored request showing no named signal carries the reason "Risk score: N" with its own score N |
| RiskScorer.LogDetection | src/Services/BotDetectionService.php:204-225 | appends exactly one entry iff logging everything or the score reaches the minimum, with the request's IP, user, URL, method, headers, score, reason and action; a missing user agent is stored as "Unknown" |
| RiskScorer.BareCurlVerdict | src/Services/BotDetectionService.php:60-95 | with the shipped weights, a known-bot user agent with all Accept* headers missing, a GET and no history scores 75, and its reasons are the user agent and the three headers in order |
| RiskScorer.BareCurlIsBlocked | src/Services/BotDetectionService.php:45-54 | with the shipped thresholds that request is blocked as a bot and not challenged |
| RiskScorer.CurlIsKnownBot | src/Services/BotDetectionService.php:100-112 | with the shipped blacklist (src/Config/anti-crawler.php lines 53-66) the user agent `curl/7.68.0` is a known bot |
| RiskScorer.CurlIsNotLegitimate | src/Services/BotDetectionService.php:117-129 | with the shipped list of legitimate crawlers (src/Config/anti-crawler.php lines 69-79) `curl/7.68.0` matches none of them |
| RiskScorer.CurlRequestIsBlocked | src/Services/BotDetectionService.php:14-95 | a GET whose only header is `User-Agent: curl/7.68.0`, from a non-whitelisted IP with no log history, under the shipped lists, weights and thresholds, scores exactly 75 and is blocked as a bot, not challenged |
| RiskScorer.CurlReasonNamesUserAgent | src/Services/BotDetectionService.php:168-198 | that request's reason starts with "Known bot user agent" |
| CaptchaManager.GenerateChallenge | src/Services/CaptchaService.php:25-38 | appends exactly one unsolved challenge with the provider as type, the client's IP and user, and the token; earlier rows untouched; a fresh token keeps tokens unique |
| CaptchaManager.VerifyChallenge | src/Services/CaptchaService.php:43-83 | passes iff the secret key is empty, or a known provider has a truthy verification URL and replied `success: true`; a failed request or missing field fails |
| CaptchaManager.RecordChallenge | src/Services/CaptchaService.php:88-95 | marks the first challenge with the token solved now and changes nothing else; an unknown token is a no-op; solved tokens only grow; uniqueness is kept |
| CaptchaManager.NeedsChallenge | src/Services/CaptchaService.php:100-120 | true iff CAPTCHAs are enabled, the score reaches the trigger threshold, and the IP has no solved challenge created in the last 30 minutes |
| CaptchaManager.GraceCountsFromCreation | src/Services/CaptchaService.php:113-117 | a challenge created more than 30 minutes ago and solved just now does not spare its IP |
| CaptchaManager.RecordingSpares | src/Services/CaptchaService.php:88-120 | after recording a solve, the challenge's IP needs no challenge until 30 minutes after the challenge was issued |
| CaptchaManager.WidgetFor | src/Services/CaptchaService.php:125-138 | "not configured" iff the site key is empty; the unknown-provider notice iff a site key is set and the provider is unknown; every provider widget carries the site key |
| CaptchaManager.ScriptUrls | src/Services/CaptchaService.php:194-202 | none iff the provider is unknown; otherwise exactly the provider's script: the Turnstile, reCAPTCHA or hCaptcha API URL |
| CaptchaManager.RecaptchaVersionsShareScript | src/Services/CaptchaService.php:194-202 | reCAPTCHA v2 and v3 list the same single script |
| CaptchaManager.WidgetScriptAgreesWithScriptUrls | src/Services/CaptchaService.php:143-202 | every configured widget loads the listed script, except reCAPTCHA v3, which loads it with the site key as `render` query |
| BotGate.IsHeadlessBrowser | src/Middleware/DetectBot.php:71-100 | true iff the lower-cased user agent contains headless/phantomjs/htmlunit/zombie or an X-WebDriver or Selenium header is truthy; the chrome-and-headless test never changes the result |
| BotGate.IsAutomationTool | src/Middleware/DetectBot.php:105-124 | true iff the lower-cased user agent contains selenium/webdriver/puppeteer/playwright/cypress |
| BotGate.HeaderNames | src/Middleware/DetectBot.php:153 | each header name once, exactly the names present |
| BotGate.HeaderNamesInFirstAppearanceOrder | src/Middleware/DetectBot.php:152-156 | the names come in the order of their first appearance among the headers, the order `array_search` counts the User-Agent position in |
| BotGate.HasSuspiciousHeaders | src/Middleware/DetectBot.php:129-162 | true iff a truthy user agent with ≥ 2 Accept* headers missing, all 3 missing, or 2 missing with the user-agent header after position 5 |
| BotGate.Handle | src/Middleware/DetectBot.php:22-66 | 403 iff headless or automation tool, headless first; at most one log entry, marked blocked iff the request is refused, scored 90 "Headless browser detected", 95 "Automation tool detected" or 75 "Suspicious header combination" by the check that fired; an entry is written iff the first check that fired has a loggable score |
| BotGate.BareRequestIsLogged | src/Middleware/DetectBot.php:56-65 | a request without any header is passed on and logged as suspicious |
| Pipeline.Handle | src/Middleware/AntiCrawler.php:33-112 | gates in order (disabled, whitelisted, blocked, rate limit, block verdict, challenge); the disabled, whitelisted and blocked exits leave the state unchanged; 429 iff the rate limit denies, with the check's retry delay (60 or 3600), and then nothing changes below the violation threshold, while at or above it the IP alone gets an automatic block for `auto_block_duration` minutes and loses its violation counter, no other counter changing; no other IP's block row ever changes; a challenge page carries the verdict's reason and score, the configured widget and the request's URL; a bot verdict upserts an automatic block with the verdict's reason for exactly the next hour; a challenge page adds exactly one challenge: unsolved, of the provider's type, for the request's IP and user, with the page's token, created now; only a fully forwarded request is counted (minute, hour and violation counters +1, no other key changed), and its headers report the requested tier's limit, the remaining count after counting and the next minute boundary as reset; a block writes one `blocked` entry, a challenge page one `challenged` entry, a forwarded request a `challenged` entry when it passed a challenge and then a `logged` entry, each carrying the verdict and written iff the score is loggable; early exits log nothing |
| Pipeline.Admit | src/Middleware/AntiCrawler.php:52-111 | for a request past the three gates, at a given tier: 429 iff the rate limit denies, with the check's retry delay, escalating to an automatic block only at or above the violation threshold; otherwise 403 iff the scorer says block, a challenge page iff it says challenge and no challenge was passed, and forwarded with the tier's headers otherwise; only a forwarded request is counted; every outcome keeps other IPs' block rows |
| Pipeline.Throttle | src/Middleware/AntiCrawler.php:53-60 | a rate-limited request is answered 429 with the check's retry delay; below the violation threshold nothing changes; at or above it the IP gets an automatic block for exactly `auto_block_duration` minutes, its violation counter is deleted and no other counter changes; other IPs' block rows, logs and challenges are untouched |
| Pipeline.Screen | src/Middleware/AntiCrawler.php:62-111 | for a request within its limit: 403 iff the scorer says block, and then an automatic block with the verdict's reason is upserted for exactly one hour and one `blocked` entry logged; a challenge page iff the scorer says challenge and the request lacks a passed challenge, adding one unsolved challenge of the provider's type for the request's IP and user, with the page's token and created now, and logging one `challenged` entry; the page carries the verdict's reason and score, the configured widget and the request's URL; otherwise forwarded with headers, logged (`challenged` then `logged` after a passed challenge), counted in all three counters, with headers giving the requested tier's limit, the remaining count after counting and the next minute boundary as reset; every entry carries the verdict and is written iff the score is loggable; no other IP's block row changes |
| Pipeline.BlockBot | src/Middleware/AntiCrawler.php:66-80 | a block verdict appends one `blocked` entry with the verdict's score and reason iff the score is loggable, and upserts an automatic block with the verdict's reason that holds for exactly the next hour, whatever block the IP had before; other IPs' rows, whitelist, challenges and counters are untouched |
| Pipeline.IssueChallenge | src/Middleware/AntiCrawler.php:82-91 | a challenge without a pass appends one `challenged` entry with the verdict iff the score is loggable, and exactly one challenge: unsolved, of the configured provider's type, for the request's IP and user, with the page's token, created now; blocklist and counters untouched |
| Pipeline.CountAndForward | src/Middleware/AntiCrawler.php:94-111 | a forwarded request is logged `challenged` (when it passed a challenge) and then `logged`, each iff the score is loggable; its minute, hour and violation counters rise by one with no other key changed; the headers give the requested tier's per-minute limit, the remaining count after that increment, and a reset at the next multiple of 60 within (now, now + 60] |
| Pipeline.ForwardLogs | src/Middleware/AntiCrawler.php:84-98 | the entries of a request let through: `challenged` then `logged` after a passed challenge, `logged` alone otherwise, each carrying the verdict, all written iff the score is loggable |
| Pipeline.DetectedBotStaysBlocked | src/Middleware/AntiCrawler.php:66-80 | after a bot verdict every request from that IP within the hour is answered 403 with no state change |
| Pipeline.RateLimitEscalates | src/Middleware/AntiCrawler.php:53-60 | a rate-limited request whose IP had enough violations makes every request from that IP within `auto_block_duration` minutes answer 403 |
| Pipeline.WhitelistedTrafficLeavesNoTrace | src/Middleware/AntiCrawler.php:42-45 | any run of whitelisted requests leaves the state unchanged |

## Left out

- The Blade views, the admin controller, the routes and the service provider are not part of this model: they render pages, page through tables and wire services.
- The migrations are not modelled as code. The unique indexes on the blocked IP and the challenge token appear as `WellFormed` invariants. The whitelist's migration is not part of this model; one row per whitelisted IP is the invariant that `addIp`'s `updateOrCreate` keeps (Whitelist.AddIp).
- `INCR` followed by `EXPIRE` is one atomic step here. The race between the two Redis calls is concurrency.
- `KEYS pattern*` is modelled as a prefix match; glob metacharacters inside an IP are not interpreted.
- Whitelist.IsWhitelisted: compares default-list entries by exact string equality, while PHP's `in_array` is loose; IP address strings are never numeric, so the two agree on addresses.
- `CaptchaChallenge::getSuccessRate` is floating-point division; the widget HTML text is markup. Only the provider-to-widget choice and the script URL are modelled.
- `analyzeUserAgent` only packs `isKnownBot` and `isWhitelistedBot` into an array; both are modelled.
- The relation accessors (`user`, `blockedByUser`, `createdByUser`) and the booleans returned by `removeIp`, `unblockIp` and `markAsSolved` carry no decision logic.
- The configured `rapid_requests` weight is never read by the code and is not in the configuration record.
- CaptchaManager.RecordChallenge: has no `solved` parameter, because the source ignores it.
- CaptchaManager.VerifyChallenge: the HTTP call, its logging and the exception are collapsed into the provider reply input `Raised`.
- RiskScorer.BareCurlVerdict: stated over the observed signals of a bare `curl` request; RiskScorer.CurlRequestIsBlocked derives those signals from the literal request.
- Pipeline.Handle: reads the rate-limit headers at the same instant and for the same `auth()->id()` as the check and the count. The middleware reads them after the application has run (src/Middleware/AntiCrawler.php:104-105); by then the clock may have entered the next minute bucket, or a login or logout may have changed the user, and the headers then describe another counter.
- The CAPTCHA site and secret keys are assumed to be configured as strings, possibly empty. When the environment variable is unset the configured value is null, and assigning null to `CaptchaService`'s `string` properties (src/Services/CaptchaService.php:12-19) throws a TypeError, so the middleware that receives the service cannot be built. That failure is not modelled; `Settings.DefaultConfig` uses empty strings for both keys.
- PHP integers are 64-bit; counters and scores are unbounded here, far below any wrap-around.
- Response bodies and their configurable messages are not modelled; responses carry their status, the `Retry-After` value and the challenge page's fields.

=== FILE: anti_crawler.dfy ===
/** The main per-request pipeline (src/Middleware/AntiCrawler.php): global
    switch, IP whitelist, IP blocklist, rate limit, bot scoring, then block,
    challenge or forward. The persistent state is explicit and each request
    maps one state to the next. */
module Pipeline {
  import opened Basics
  import opened Settings
  import opened Http
  import opened Whitelist
  import opened Blocklist
  import opened Counters
  import opened Challenges
  import opened RateLimiter
  import DetectionLog
  import RiskScorer
  import CaptchaManager

  /** The database tables and the Redis store the pipeline reads and writes. */
  datatype State = State(
    whitelist: seq<WhitelistEntry>,
    blocked: seq<BlockedIp>,
    logs: seq<DetectionLog.LogEntry>,
    challenges: seq<Challenge>,
    counters: Store)

  /** What the surroundings contribute to one request: the clock, the session
      flag `captcha_verified_<ip>`, and the random challenge token. */
  datatype Environment = Environment(now: int, sessionVerified: bool, token: string)

  /** The middleware's answer. `Forwarded` passes the request to the
      application, with rate-limit headers when it went through the full
      pipeline. */
  datatype Response =
    | Forwarded(rateHeaders: Option<RateHeaders>)
    | IpBlocked
    | TooManyRequests(retryAfter: int)
    | BotDetected
    | CaptchaPage(token: string, reason: string, riskScore: int,
                  widget: CaptchaManager.Widget, returnUrl: string)

  /** The HTTP status of a response the middleware itself produces; a
      forwarded request gets whatever the application answers. */
  function Status(r: Response): Option<int> {
    match r
    case Forwarded(_) => None
    case TooManyRequests(_) => Some(429)
    case _ => Some(403)
  }

  /** How long a detected bot's IP stays blocked. */
  const BotBlockSeconds: int := 3600

  /** The tier the route names, `anonymous` when none. */
  function TierOf(tier: Option<string>): string {
    tier.GetOr("anonymous")
  }

  /** Steps 1 to 3 apply to this request: the pipeline is on, the IP is not
      whitelisted and not blocked. */
  predicate PastGates(cfg: Config, st: State, req: Request, now: int) {
    cfg.enabled && !IsWhitelisted(cfg.defaultWhitelist, st.whitelist, req.ip) && !IsBlocked(st.blocked, req.ip, now)
  }

  /** Steps 4 onwards: the request got past the rate limit. */
  predicate PastRateLimit(cfg: Config, st: State, req: Request, tier: Option<string>, now: int) {
    PastGates(cfg, st, req, now) && CheckRateLimit(cfg, st.counters, req.ip, req.userId, TierOf(tier), now).Allowed?
  }

  /** The scorer's verdict on a request that got past the rate limit. */
  function Verdict(cfg: Config, st: State, req: Request, now: int): RiskScorer.Detection {
    RiskScorer.DetectBot(cfg, st.whitelist, st.logs, req, now)
  }

  /** A challenged request carries the `captcha_verified` input and its
      session is marked verified. */
  predicate ChallengePassed(req: Request, env: Environment) {
    req.hasCaptchaVerified && env.sessionVerified
  }

  /** Step 8 reached: the request is counted and forwarded. */
  predicate FullyForwarded(cfg: Config, st: State, req: Request, tier: Option<string>, env: Environment) {
    && PastRateLimit(cfg, st, req, tier, env.now)
    && !Verdict(cfg, st, req, env.now).shouldBlock
    && (Verdict(cfg, st, req, env.now).shouldChallenge ==> ChallengePassed(req, env))
  }

  /** A log row recording the scorer's verdict on `req` under `action`. */
  predicate RecordsVerdict(e: DetectionLog.LogEntry, req: Request, d: RiskScorer.Detection,
                           action: DetectionLog.LogAction, now: int) {
    && e.ip == req.ip && e.userId == req.userId && e.url == req.url
    && e.riskScore == d.riskScore && e.reason == d.reason && e.action == action && e.createdAt == now
  }

  /** When the verdict's score is loggable, `after` is `before` followed by
      one verdict row per action, in order; otherwise the log is unchanged. */
  predicate LogsVerdict(cfg: Config, before: seq<DetectionLog.LogEntry>, after: seq<DetectionLog.LogEntry>,
                        req: Request, d: RiskScorer.Detection, actions: seq<DetectionLog.LogAction>, now: int) {
    if RiskScorer.ShouldLog(cfg, d.riskScore) then
      && |after| == |before| + |actions| && after[..|before|] == before
      && forall i :: 0 <= i < |actions| ==> RecordsVerdict(after[|before| + i], req, d, actions[i], now)
    else after == before
  }

  /** The actions logged for a request let through: `challenged` first when
      it passed a challenge, then `logged`. */
  function ForwardActions(d: RiskScorer.Detection): seq<DetectionLog.LogAction> {
    if d.shouldChallenge then [DetectionLog.Challenged, DetectionLog.Logged] else [DetectionLog.Logged]
  }

  /** The request was counted: its minute, hour and violation counters each
      rose by one and no other key changed. */
  predicate Counted(cfg: Config, before: Store, after: Store, req: Request, now: int) {
    var mk := CounterKey(cfg.redisPrefix, req.ip, req.userId, Minute, now);
    var hk := CounterKey(cfg.redisPrefix, req.ip, req.userId, Hour, now);
    var vk := ViolationKey(cfg.redisPrefix, req.ip);
    && Get(after, mk, now) == Get(before, mk, now) + 1
    && Get(after, hk, now) == Get(before, hk, now) + 1
    && Get(after, vk, now) == Get(before, vk, now) + 1
    && after - {mk, hk, vk} == before - {mk, hk, vk}
  }

  /** The list holds the automatic, hour-long block a bot verdict with this
      reason writes for `ip` at time `now`. */
  predicate HasBotBlock(blocked: seq<BlockedIp>, ip: string, reason: string, now: int) {
    BlockedIp(ip, reason, Auto, None, Some(now + BotBlockSeconds)) in blocked
  }

  /** Every block row of another IP is kept, and no other IP gains one. */
  ghost predicate OthersKeepBlocks(before: seq<BlockedIp>, after: seq<BlockedIp>, ip: string) {
    forall b: BlockedIp :: b.ip != ip ==> (b in after <==> b in before)
  }

  /** What a refused request does to the state: the tables other than the
      blocklist are kept. Below the violation threshold nothing changes. At or
      above it the IP gets an automatic block for `autoBlockDuration` minutes,
      its violation counter is deleted, and no other counter changes. */
  ghost predicate Escalated(cfg: Config, before: State, after: State, ip: string, now: int) {
    var vk := ViolationKey(cfg.redisPrefix, ip);
    var until := now + cfg.autoBlockDuration * 60;
    && after.whitelist == before.whitelist && after.logs == before.logs && after.challenges == before.challenges
    && OthersKeepBlocks(before.blocked, after.blocked, ip)
    && (ViolationCount(cfg, before.counters, ip, now) < cfg.autoBlockThreshold ==> after == before)
    && (ViolationCount(cfg, before.counters, ip, now) >= cfg.autoBlockThreshold ==>
          && (exists b :: b in after.blocked && b.ip == ip && b.blockedBy == Auto
                          && b.blockedByUser.None? && b.expiresAt == Some(until))
          && ViolationCount(cfg, after.counters, ip, now) == 0
          && after.counters - {vk} == before.counters - {vk}
          && (Blocklist.WellFormed(before.blocked) ==> forall t :: IsBlocked(after.blocked, ip, t) <==> t < until))
  }

  /** Steps 4 to 8, for a request within its rate limit: a bot verdict blocks
      the IP for an hour, a challenge verdict without a passed challenge issues
      one, anything else is logged, counted and forwarded with headers. */
  function Screen(cfg: Config, st: State, req: Request, tier: string, env: Environment): (r: (State, Response))
    ensures var d := Verdict(cfg, st, req, env.now);
      && (r.1.BotDetected? <==> d.shouldBlock)
      && (r.1.CaptchaPage? <==> !d.shouldBlock && d.shouldChallenge && !ChallengePassed(req, env))
      && (r.1.Forwarded? <==> !d.shouldBlock && (d.shouldChallenge ==> ChallengePassed(req, env)))
    ensures !r.1.IpBlocked? && !r.1.TooManyRequests?
    ensures r.1.Forwarded? ==> r.1.rateHeaders.Some?
    ensures var d := Verdict(cfg, st, req, env.now);
      && (r.1.BotDetected? ==> LogsVerdict(cfg, st.logs, r.0.logs, req, d, [DetectionLog.Blocked], env.now))
      && (r.1.CaptchaPage? ==> LogsVerdict(cfg, st.logs, r.0.logs, req, d, [DetectionLog.Challenged], env.now))
      && (r.1.Forwarded? ==> LogsVerdict(cfg, st.logs, r.0.logs, req, d, ForwardActions(d), env.now))
    ensures r.1.Forwarded? ==> Counted(cfg, st.counters, r.0.counters, req, env.now)
    ensures r.0.whitelist == st.whitelist
    ensures |st.logs| <= |r.0.logs| <= |st.logs| + 2 && r.0.logs[..|st.logs|] == st.logs
    ensures !r.1.CaptchaPage? ==> r.0.challenges == st.challenges
    ensures r.1.CaptchaPage? ==>
      && |r.0.challenges| == |st.challenges| + 1 && r.0.challenges[..|st.challenges|] == st.challenges
      && r.0.challenges[|st.challenges|] == Challenge(req.ip, req.userId, cfg.provider, env.token, false, None, env.now)
      && r.1.token == env.token
      && cfg.captchaTriggerThreshold <= r.1.riskScore < cfg.riskThreshold
    ensures var d := Verdict(cfg, st, req, env.now);
      r.1.CaptchaPage? ==>
        && r.1.reason == d.reason && r.1.riskScore == d.riskScore
        && r.1.widget == CaptchaManager.WidgetFor(cfg) && r.1.returnUrl == req.url
    ensures r.1.BotDetected? && Blocklist.WellFormed(st.blocked) ==>
      forall t :: IsBlocked(r.0.blocked, req.ip, t) <==> t < env.now + BotBlockSeconds
    ensures var d := Verdict(cfg, st, req, env.now);
      r.1.BotDetected? ==> HasBotBlock(r.0.blocked, req.ip, d.reason, env.now)
    ensures OthersKeepBlocks(st.blocked, r.0.blocked, req.ip)
    ensures !r.1.BotDetected? ==> r.0.blocked == st.blocked
    ensures Blocklist.WellFormed(st.blocked) ==> Blocklist.WellFormed(r.0.blocked)
    ensures !r.1.Forwarded? ==> r.0.counters == st.counters
    ensures r.1.Forwarded? ==>
      && MinuteCount(cfg, r.0.counters, req.ip, req.userId, env.now)
         == MinuteCount(cfg, st.counters, req.ip, req.userId, env.now) + 1
      && r.1.rateHeaders.value.remaining
         == GetRemainingAttempts(cfg, r.0.counters, req.ip, req.userId, tier, env.now)
    ensures r.1.Forwarded? ==>
      && r.1.rateHeaders.value.limit == ReportedLimit(cfg, tier)
      && r.1.rateHeaders.value.reset % 60 == 0 && env.now < r.1.rateHeaders.value.reset <= env.now + 60
  {
    var now := env.now;
    var d := RiskScorer.DetectBot(cfg, st.whitelist, st.logs, req, now);
    if d.shouldBlock then
      (BlockBot(cfg, st, req, d, now), BotDetected)
    else if d.shouldChallenge && !ChallengePassed(req, env) then
      (IssueChallenge(cfg, st, req, d, env), CaptchaPage(env.token, d.reason, d.riskScore, CaptchaManager.WidgetFor(cfg), req.url))
    else
      var fwd := CountAndForward(cfg, st, req, d, tier, now);
      (fwd.0, Forwarded(Some(fwd.1)))
  }

  /** Step 5: the verdict is logged as blocked and the IP blocked for an
      hour, replacing whatever block it had. */
  function BlockBot(cfg: Config, st: State, req: Request, d: RiskScorer.Detection, now: int): (s: State)
    ensures s.whitelist == st.whitelist && s.challenges == st.challenges && s.counters == st.counters
    ensures LogsVerdict(cfg, st.logs, s.logs, req, d, [DetectionLog.Blocked], now)
    ensures HasBotBlock(s.blocked, req.ip, d.reason, now)
    ensures OthersKeepBlocks(st.blocked, s.blocked, req.ip)
    ensures Blocklist.WellFormed(st.blocked) ==>
      && Blocklist.WellFormed(s.blocked)
      && forall t :: IsBlocked(s.blocked, req.ip, t) <==> t < now + BotBlockSeconds
  {
    var logs := RiskScorer.LogDetection(cfg, st.logs, req, d.riskScore, d.reason, DetectionLog.Blocked, now);
    var blocked := BlockIp(st.blocked, req.ip, d.reason, Auto, None, Some(now + BotBlockSeconds));
    st.(logs := logs, blocked := blocked)
  }

  /** Step 6 without a passed challenge: the verdict is logged as challenged
      and one unsolved challenge carrying the page's token is issued. */
  function IssueChallenge(cfg: Config, st: State, req: Request, d: RiskScorer.Detection, env: Environment): (s: State)
    ensures s.whitelist == st.whitelist && s.blocked == st.blocked && s.counters == st.counters
    ensures LogsVerdict(cfg, st.logs, s.logs, req, d, [DetectionLog.Challenged], env.now)
    ensures |s.challenges| == |st.challenges| + 1 && s.challenges[..|st.challenges|] == st.challenges
    ensures s.challenges[|st.challenges|] == Challenge(req.ip, req.userId, cfg.provider, env.token, false, None, env.now)
  {
    var logs := RiskScorer.LogDetection(cfg, st.logs, req, d.riskScore, d.reason, DetectionLog.Challenged, env.now);
    var challenges := CaptchaManager.GenerateChallenge(cfg, st.challenges, req.ip, req.userId, env.token, env.now);
    st.(logs := logs, challenges := challenges)
  }

  /** Steps 6 to 8 for a request let through: a passed challenge is logged as
      challenged, the request logged when loggable, counted, and given the
      headers read after counting. */
  function CountAndForward(cfg: Config, st: State, req: Request, d: RiskScorer.Detection, tier: string, now: int)
    : (r: (State, RateHeaders))
    ensures r.0.whitelist == st.whitelist && r.0.blocked == st.blocked && r.0.challenges == st.challenges
    ensures LogsVerdict(cfg, st.logs, r.0.logs, req, d, ForwardActions(d), now)
    ensures Counted(cfg, st.counters, r.0.counters, req, now)
    ensures r.1.remaining == GetRemainingAttempts(cfg, r.0.counters, req.ip, req.userId, tier, now)
    ensures r.1.limit == ReportedLimit(cfg, tier)
    ensures r.1.reset % 60 == 0 && now < r.1.reset <= now + 60
  {
    var counters := IncrementCounter(cfg, st.counters, req.ip, req.userId, tier, now);
    (st.(logs := ForwardLogs(cfg, st.logs, req, d, now), counters := counters),
     RateLimitHeaders(cfg, counters, req.ip, req.userId, tier, now))
  }

  /** The log writes of a request let through: a passed challenge is logged
      as challenged, then the request as logged, each when loggable. */
  function ForwardLogs(cfg: Config, logs: seq<DetectionLog.LogEntry>, req: Request, d: RiskScorer.Detection, now: int)
    : (r: seq<DetectionLog.LogEntry>)
    ensures LogsVerdict(cfg, logs, r, req, d, ForwardActions(d), now)
  {
    var logs1 := if d.shouldChallenge
                 then RiskScorer.LogDetection(cfg, logs, req, d.riskScore, d.reason, DetectionLog.Challenged, now)
                 else logs;
    var logs2 := RiskScorer.LogDetection(cfg, logs1, req, d.riskScore, d.reason, DetectionLog.Logged, now);
    assert logs2[..|logs|] == logs2[..|logs1|][..|logs|];
    logs2
  }

  /** Step 4 refusing the request: 429 with the check's retry delay, and an
      automatic block when the IP's violations reached the threshold. The
      minute counter is left as it was. */
  function Throttle(cfg: Config, st: State, req: Request, check: RateCheck, now: int): (r: (State, Response))
    requires check.Denied?
    ensures r.1 == TooManyRequests(check.retryAfter)
    ensures Escalated(cfg, st, r.0, req.ip, now)
    ensures Blocklist.WellFormed(st.blocked) ==> Blocklist.WellFormed(r.0.blocked)
    ensures MinuteCount(cfg, r.0.counters, req.ip, req.userId, now) == MinuteCount(cfg, st.counters, req.ip, req.userId, now)
  {
    var esc := BlockIpTemporarily(cfg, st.blocked, st.counters, req.ip, cfg.autoBlockDuration, now);
    KeysDistinct(cfg.redisPrefix, req.ip, req.userId, now, now, req.ip);
    var mk := CounterKey(cfg.redisPrefix, req.ip, req.userId, Minute, now);
    var vk := ViolationKey(cfg.redisPrefix, req.ip);
    assert mk in esc.counters <==> mk in esc.counters - {vk};
    assert mk in st.counters <==> mk in st.counters - {vk};
    (st.(blocked := esc.blocked, counters := esc.counters), TooManyRequests(check.retryAfter))
  }

  /** `handle`: the first gate that applies decides. Requests stopped before
      scoring leave the state alone, except that a rate-limited request may
      escalate to an automatic block. Only a fully forwarded request is
      counted, and its headers describe the counters after counting. */
  function Handle(cfg: Config, st: State, req: Request, tier: Option<string>, env: Environment)
    : (r: (State, Response))
    // precedence of the gates
    ensures !cfg.enabled ==> r == (st, Forwarded(None))
    ensures cfg.enabled && IsWhitelisted(cfg.defaultWhitelist, st.whitelist, req.ip) ==> r == (st, Forwarded(None))
    ensures (cfg.enabled && !IsWhitelisted(cfg.defaultWhitelist, st.whitelist, req.ip)
             && IsBlocked(st.blocked, req.ip, env.now)) ==> r == (st, IpBlocked)
    ensures r.1.TooManyRequests? <==>
      PastGates(cfg, st, req, env.now)
      && CheckRateLimit(cfg, st.counters, req.ip, req.userId, TierOf(tier), env.now).Denied?
    ensures r.1.TooManyRequests? ==>
      r.1.retryAfter == CheckRateLimit(cfg, st.counters, req.ip, req.userId, TierOf(tier), env.now).retryAfter
    ensures r.1.TooManyRequests? ==> r.1.retryAfter == 60 || r.1.retryAfter == 3600
    ensures r.1.BotDetected? <==>
      PastRateLimit(cfg, st, req, tier, env.now) && Verdict(cfg, st, req, env.now).shouldBlock
    ensures r.1.CaptchaPage? <==>
      && PastRateLimit(cfg, st, req, tier, env.now)
      && Verdict(cfg, st, req, env.now).shouldChallenge && !ChallengePassed(req, env)
    ensures r.1 == Forwarded(None) <==> !cfg.enabled || IsWhitelisted(cfg.defaultWhitelist, st.whitelist, req.ip)
    ensures (r.1.Forwarded? && r.1.rateHeaders.Some?) <==> FullyForwarded(cfg, st, req, tier, env)
    // what each outcome does to the state
    ensures r.0.whitelist == st.whitelist
    ensures |st.logs| <= |r.0.logs| <= |st.logs| + 2 && r.0.logs[..|st.logs|] == st.logs
    ensures var d := Verdict(cfg, st, req, env.now);
      && (r.1.BotDetected? ==> LogsVerdict(cfg, st.logs, r.0.logs, req, d, [DetectionLog.Blocked], env.now))
      && (r.1.CaptchaPage? ==> LogsVerdict(cfg, st.logs, r.0.logs, req, d, [DetectionLog.Challenged], env.now))
      && (r.1.Forwarded? && r.1.rateHeaders.Some? ==>
            LogsVerdict(cfg, st.logs, r.0.logs, req, d, ForwardActions(d), env.now))
    ensures r.1.IpBlocked? || r.1.TooManyRequests? || r.1 == Forwarded(None) ==> r.0.logs == st.logs
    ensures !r.1.CaptchaPage? ==> r.0.challenges == st.challenges
    ensures r.1.CaptchaPage? ==>
      && |r.0.challenges| == |st.challenges| + 1 && r.0.challenges[..|st.challenges|] == st.challenges
      && r.0.challenges[|st.challenges|] == Challenge(req.ip, req.userId, cfg.provider, env.token, false, None, env.now)
      && r.1.token == env.token
      && cfg.captchaTriggerThreshold <= r.1.riskScore < cfg.riskThreshold
    ensures var d := Verdict(cfg, st, req, env.now);
      r.1.CaptchaPage? ==>
        && r.1.reason == d.reason && r.1.riskScore == d.riskScore
        && r.1.widget == CaptchaManager.WidgetFor(cfg) && r.1.returnUrl == req.url
    ensures r.1.BotDetected? && Blocklist.WellFormed(st.blocked) ==>
      forall t :: IsBlocked(r.0.blocked, req.ip, t) <==> t < env.now + BotBlockSeconds
    ensures var d := Verdict(cfg, st, req, env.now);
      r.1.BotDetected? ==> HasBotBlock(r.0.blocked, req.ip, d.reason, env.now)
    ensures r.1.TooManyRequests? ==> Escalated(cfg, st, r.0, req.ip, env.now)
    ensures OthersKeepBlocks(st.blocked, r.0.blocked, req.ip)
    ensures r.1.Forwarded? && r.1.rateHeaders.Some? ==> Counted(cfg, st.counters, r.0.counters, req, env.now)
    ensures !r.1.BotDetected? && !r.1.TooManyRequests? ==> r.0.blocked == st.blocked
    ensures Blocklist.WellFormed(st.blocked) ==> Blocklist.WellFormed(r.0.blocked)
    ensures !r.1.TooManyRequests? && !(r.1.Forwarded? && r.1.rateHeaders.Some?) ==> r.0.counters == st.counters
    ensures r.1.Forwarded? && r.1.rateHeaders.Some? ==>
      && MinuteCount(cfg, r.0.counters, req.ip, req.userId, env.now)
         == MinuteCount(cfg, st.counters, req.ip, req.userId, env.now) + 1
      && r.1.rateHeaders.value.remaining
         == GetRemainingAttempts(cfg, r.0.counters, req.ip, req.userId, TierOf(tier), env.now)
      && r.1.rateHeaders.value.limit == ReportedLimit(cfg, TierOf(tier))
      && r.1.rateHeaders.value.reset % 60 == 0 && env.now < r.1.rateHeaders.value.reset <= env.now + 60
    ensures r.1.TooManyRequests? ==>
      MinuteCount(cfg, r.0.counters, req.ip, req.userId, env.now)
      == MinuteCount(cfg, st.counters, req.ip, req.userId, env.now)
  {
    if !cfg.enabled then (st, Forwarded(None))
    else if IsWhitelisted(cfg.defaultWhitelist, st.whitelist, req.ip) then (st, Forwarded(None))
    else if IsBlocked(st.blocked, req.ip, env.now) then (st, IpBlocked)
    else
      Admit(cfg, st, req, TierOf(tier), env)
  }

  /** Steps 4 to 8, for a request past the three gates: the rate limit for
      tier `t` refuses it, or it is scored and blocked, challenged or
      forwarded. */
  function Admit(cfg: Config, st: State, req: Request, t: string, env: Environment): (r: (State, Response))
    ensures var check := CheckRateLimit(cfg, st.counters, req.ip, req.userId, t, env.now);
      && (r.1.TooManyRequests? <==> check.Denied?)
      && (r.1.TooManyRequests? ==> r.1.retryAfter == check.retryAfter)
    ensures r.1.TooManyRequests? ==> r.1.retryAfter == 60 || r.1.retryAfter == 3600
    ensures var ok := CheckRateLimit(cfg, st.counters, req.ip, req.userId, t, env.now).Allowed?;
      var d := Verdict(cfg, st, req, env.now);
      && (r.1.BotDetected? <==> ok && d.shouldBlock)
      && (r.1.CaptchaPage? <==> ok && d.shouldChallenge && !ChallengePassed(req, env))
      && (r.1.Forwarded? <==> ok && !d.shouldBlock && (d.shouldChallenge ==> ChallengePassed(req, env)))
    ensures !r.1.IpBlocked? && (r.1.Forwarded? ==> r.1.rateHeaders.Some?)
    ensures r.0.whitelist == st.whitelist
    ensures |st.logs| <= |r.0.logs| <= |st.logs| + 2 && r.0.logs[..|st.logs|] == st.logs
    ensures var d := Verdict(cfg, st, req, env.now);
      && (r.1.BotDetected? ==> LogsVerdict(cfg, st.logs, r.0.logs, req, d, [DetectionLog.Blocked], env.now))
      && (r.1.CaptchaPage? ==> LogsVerdict(cfg, st.logs, r.0.logs, req, d, [DetectionLog.Challenged], env.now))
      && (r.1.Forwarded? ==> LogsVerdict(cfg, st.logs, r.0.logs, req, d, ForwardActions(d), env.now))
    ensures r.1.TooManyRequests? ==> r.0.logs == st.logs
    ensures !r.1.CaptchaPage? ==> r.0.challenges == st.challenges
    ensures r.1.CaptchaPage? ==>
      && |r.0.challenges| == |st.challenges| + 1 && r.0.challenges[..|st.challenges|] == st.challenges
      && r.0.challenges[|st.challenges|] == Challenge(req.ip, req.userId, cfg.provider, env.token, false, None, env.now)
      && r.1.token == env.token
      && cfg.captchaTriggerThreshold <= r.1.riskScore < cfg.riskThreshold
    ensures var d := Verdict(cfg, st, req, env.now);
      r.1.CaptchaPage? ==>
        && r.1.reason == d.reason && r.1.riskScore == d.riskScore
        && r.1.widget == CaptchaManager.WidgetFor(cfg) && r.1.returnUrl == req.url
    ensures r.1.BotDetected? && Blocklist.WellFormed(st.blocked) ==>
      forall t' :: IsBlocked(r.0.blocked, req.ip, t') <==> t' < env.now + BotBlockSeconds
    ensures var d := Verdict(cfg, st, req, env.now);
      r.1.BotDetected? ==> HasBotBlock(r.0.blocked, req.ip, d.reason, env.now)
    ensures r.1.TooManyRequests? ==> Escalated(cfg, st, r.0, req.ip, env.now)
    ensures OthersKeepBlocks(st.blocked, r.0.blocked, req.ip)
    ensures r.1.Forwarded? ==> Counted(cfg, st.counters, r.0.counters, req, env.now)
    ensures !r.1.BotDetected? && !r.1.TooManyRequests? ==> r.0.blocked == st.blocked
    ensures Blocklist.WellFormed(st.blocked) ==> Blocklist.WellFormed(r.0.blocked)
    ensures r.1.BotDetected? || r.1.CaptchaPage? ==> r.0.counters == st.counters
    ensures r.1.Forwarded? ==>
      && MinuteCount(cfg, r.0.counters, req.ip, req.userId, env.now)
         == MinuteCount(cfg, st.counters, req.ip, req.userId, env.now) + 1
      && r.1.rateHeaders.value.remaining
         == GetRemainingAttempts(cfg, r.0.counters, req.ip, req.userId, t, env.now)
      && r.1.rateHeaders.value.limit == ReportedLimit(cfg, t)
      && r.1.rateHeaders.value.reset % 60 == 0 && env.now < r.1.rateHeaders.value.reset <= env.now + 60
    ensures r.1.TooManyRequests? ==>
      MinuteCount(cfg, r.0.counters, req.ip, req.userId, env.now)
      == MinuteCount(cfg, st.counters, req.ip, req.userId, env.now)
  {
    var check := CheckRateLimit(cfg, st.counters, req.ip, req.userId, t, env.now);
    if check.Denied? then
      Throttle(cfg, st, req, check, env.now)
    else
      Screen(cfg, st, req, t, env)
  }

  // ---------------------------------------------------------------------------
  // Consecutive requests
  // ---------------------------------------------------------------------------

  /** A request refused as a bot blocks its IP for the next hour: any request
      from that IP in that hour (whatever it looks like) is answered 403
      without being scored, counted or logged. */
  lemma DetectedBotStaysBlocked(cfg: Config, st: State, req: Request, tier: Option<string>, env: Environment,
                                req2: Request, tier2: Option<string>, env2: Environment)
    requires Blocklist.WellFormed(st.blocked)
    requires PastRateLimit(cfg, st, req, tier, env.now) && Verdict(cfg, st, req, env.now).shouldBlock
    requires req2.ip == req.ip && env.now <= env2.now < env.now + BotBlockSeconds
    ensures var st1 := Handle(cfg, st, req, tier, env).0;
      Handle(cfg, st1, req2, tier2, env2) == (st1, IpBlocked)
  {
    var st1 := Handle(cfg, st, req, tier, env).0;
    assert IsBlocked(st1.blocked, req2.ip, env2.now);
  }

  /** A rate-limited request whose IP has piled up enough violations blocks
      the IP for `autoBlockDuration` minutes: the next request in that time is
      answered 403. */
  lemma RateLimitEscalates(cfg: Config, st: State, req: Request, tier: Option<string>, env: Environment,
                           req2: Request, tier2: Option<string>, env2: Environment)
    requires Blocklist.WellFormed(st.blocked)
    requires Handle(cfg, st, req, tier, env).1.TooManyRequests?
    requires ViolationCount(cfg, st.counters, req.ip, env.now) >= cfg.autoBlockThreshold
    requires req2.ip == req.ip && env.now <= env2.now < env.now + cfg.autoBlockDuration * 60
    ensures var st1 := Handle(cfg, st, req, tier, env).0;
      Handle(cfg, st1, req2, tier2, env2) == (st1, IpBlocked)
  {
    var st1 := Handle(cfg, st, req, tier, env).0;
    var esc := BlockIpTemporarily(cfg, st.blocked, st.counters, req.ip, cfg.autoBlockDuration, env.now);
    assert st1.blocked == esc.blocked;
    assert IsBlocked(st1.blocked, req2.ip, env2.now);
  }

  /** Whitelisted traffic is invisible to the pipeline: it never changes the
      state, however many such requests arrive. */
  lemma {:induction false} WhitelistedTrafficLeavesNoTrace(cfg: Config, st: State, reqs: seq<Request>, tier: Option<string>,
                                        env: Environment)
    requires forall i :: 0 <= i < |reqs| ==> IsWhitelisted(cfg.defaultWhitelist, st.whitelist, reqs[i].ip)
    ensures Run(cfg, st, reqs, tier, env) == st
    decreases |reqs|
  {
    if |reqs| > 0 {
      WhitelistedTrafficLeavesNoTrace(cfg, st, reqs[1..], tier, env);
    }
  }

  /** The state after handling `reqs` in order at one instant. */
  function Run(cfg: Config, st: State, reqs: seq<Request>, tier: Option<string>, env: Environment): State
    decreases |reqs|
  {
    if |reqs| == 0 then st
    else Run(cfg, Handle(cfg, st, reqs[0], tier, env).0, reqs[1..], tier, env)
  }
}

=== FILE: basics.dfy ===
/** Shared vocabulary: an Option type, the PHP string primitives the package
    relies on (ASCII `strtolower`, `str_contains`, integer interpolation,
    `implode`, `empty`), and order-preserving filters over rows. */
module Basics {

  datatype Option<+T> = None | Some(value: T) {
    /** The `??` operator: the wrapped value, or `default` when absent. */
    function GetOr(default: T): T {
      match this
      case Some(v) => v
      case None => default
    }
  }

  // ---------------------------------------------------------------------------
  // Strings
  // ---------------------------------------------------------------------------

  /** PHP 8 `strtolower` on one character: only ASCII letters change. */
  function LowerChar(c: char): char {
    if 'A' <= c <= 'Z' then (c as int + 32) as char else c
  }

  function Lower(s: string): (r: string)
    ensures |r| == |s|
    ensures forall i :: 0 <= i < |s| ==> r[i] == LowerChar(s[i])
  {
    seq(|s|, i requires 0 <= i < |s| => LowerChar(s[i]))
  }

  predicate StartsWith(s: string, prefix: string) {
    |prefix| <= |s| && s[..|prefix|] == prefix
  }

  /** `sub` occurs in `s` starting at position `i`. */
  predicate OccursAt(s: string, sub: string, i: int) {
    0 <= i <= |s| - |sub| && s[i..i + |sub|] == sub
  }

  /** PHP 8 `str_contains`: `sub` occurs somewhere in `s` (the empty needle
      occurs everywhere). */
  function Contains(s: string, sub: string): (b: bool)
    ensures b <==> exists i :: OccursAt(s, sub, i)
    decreases |s|
  {
    if StartsWith(s, sub) then
      assert OccursAt(s, sub, 0);
      true
    else if |s| == 0 then
      false
    else
      var rest := Contains(s[1..], sub);
      if rest then
        var i :| OccursAt(s[1..], sub, i);
        assert OccursAt(s, sub, i + 1) by {
          assert s[1..][i..i + |sub|] == s[i + 1..i + 1 + |sub|];
        }
        true
      else
        assert forall i :: OccursAt(s, sub, i) ==> OccursAt(s[1..], sub, i - 1) by {
          forall i | OccursAt(s, sub, i)
            ensures OccursAt(s[1..], sub, i - 1)
          {
            if i > 0 {
              assert s[1..][i - 1..i - 1 + |sub|] == s[i..i + |sub|];
            }
          }
        }
        false
  }

  /** PHP's `empty()` on a string: the empty string and "0" are empty. */
  predicate EmptyString(s: string) {
    s == "" || s == "0"
  }

  function DigitChar(d: nat): (c: char)
    requires d < 10
    ensures '0' <= c <= '9'
  {
    "0123456789"[d]
  }

  predicate AllDigits(s: string) {
    forall i :: 0 <= i < |s| ==> '0' <= s[i] <= '9'
  }

  /** Decimal rendering of a natural number, as PHP interpolates integers. */
  function NatToString(n: nat): (r: string)
    ensures |r| >= 1 && AllDigits(r)
    ensures |r| == 1 <==> n < 10
    decreases n
  {
    if n < 10 then [DigitChar(n)] else NatToString(n / 10) + [DigitChar(n % 10)]
  }

  /** Decimal rendering of an integer, with a leading '-' when negative. */
  function IntToString(i: int): (r: string)
    ensures |r| >= 1
    ensures i >= 0 ==> AllDigits(r)
    ensures i < 0 ==> r[0] == '-'
  {
    if i < 0 then "-" + NatToString(-i) else NatToString(i)
  }

  lemma DigitCharInjective(a: nat, b: nat)
    requires a < 10 && b < 10 && DigitChar(a) == DigitChar(b)
    ensures a == b
  {
  }

  /** Distinct naturals render to distinct decimal strings. */
  lemma {:induction false} NatToStringInjective(a: nat, b: nat)
    requires NatToString(a) == NatToString(b)
    ensures a == b
    decreases a
  {
    var ra, rb := NatToString(a), NatToString(b);
    if a < 10 {
      assert b < 10;
      DigitCharInjective(a, b);
    } else {
      assert b >= 10;
      assert ra[|ra| - 1] == DigitChar(a % 10);
      assert rb[|rb| - 1] == DigitChar(b % 10);
      DigitCharInjective(a % 10, b % 10);
      assert ra[..|ra| - 1] == NatToString(a / 10);
      assert rb[..|rb| - 1] == NatToString(b / 10);
      NatToStringInjective(a / 10, b / 10);
    }
  }

  /** A common prefix cancels from both sides of an equation. */
  lemma PrefixCancel<T>(a: seq<T>, x: seq<T>, y: seq<T>)
    requires a + x == a + y
    ensures x == y
  {
    assert x == (a + x)[|a|..];
    assert y == (a + y)[|a|..];
  }

  /** Distinct integers render to distinct strings. */
  lemma IntToStringInjective(a: int, b: int)
    requires IntToString(a) == IntToString(b)
    ensures a == b
  {
    if a < 0 && b < 0 {
      assert IntToString(a)[1..] == NatToString(-a);
      assert IntToString(b)[1..] == NatToString(-b);
      NatToStringInjective(-a, -b);
    } else if a >= 0 && b >= 0 {
      NatToStringInjective(a, b);
    }
  }

  /** PHP `implode(sep, parts)`: empty for no parts, and otherwise starting
      with the first part. */
  function Join(parts: seq<string>, sep: string): (r: string)
    ensures |parts| == 0 ==> r == ""
    ensures |parts| > 0 ==> StartsWith(r, parts[0])
  {
    if |parts| == 0 then ""
    else if |parts| == 1 then parts[0]
    else parts[0] + sep + Join(parts[1..], sep)
  }

  /** An occurrence in `b` is an occurrence in `a + b`, shifted by `|a|`. */
  lemma OccursInSuffix(a: string, b: string, sub: string, k: int)
    requires OccursAt(b, sub, k)
    ensures OccursAt(a + b, sub, |a| + k)
  {
    assert (a + b)[|a| + k..|a| + k + |sub|] == b[k..k + |sub|];
  }

  /** Every part appears in the joined string. */
  lemma {:induction false} JoinHasEveryPart(parts: seq<string>, sep: string)
    ensures forall i :: 0 <= i < |parts| ==> Contains(Join(parts, sep), parts[i])
  {
    if |parts| == 1 {
      assert OccursAt(Join(parts, sep), parts[0], 0);
    } else if |parts| > 1 {
      var rest := Join(parts[1..], sep);
      var j := Join(parts, sep);
      JoinHasEveryPart(parts[1..], sep);
      assert j == (parts[0] + sep) + rest;
      assert OccursAt(j, parts[0], 0);
      forall i | 1 <= i < |parts|
        ensures Contains(j, parts[i])
      {
        assert parts[1..][i - 1] == parts[i];
        var k :| OccursAt(rest, parts[i], k);
        OccursInSuffix(parts[0] + sep, rest, parts[i], k);
      }
    }
  }

  // ---------------------------------------------------------------------------
  // Rows and filters
  // ---------------------------------------------------------------------------

  /** `a` is obtained from `b` by deleting elements (order is kept). */
  predicate IsSubsequence<T(==)>(a: seq<T>, b: seq<T>)
    decreases |b|
  {
    if |a| == 0 then true
    else if |b| == 0 then false
    else if a[0] == b[0] then IsSubsequence(a[1..], b[1..])
    else IsSubsequence(a, b[1..])
  }

  /** A query `where p`: the rows satisfying `p`, in their original order. */
  function Filter<T(==,!new)>(s: seq<T>, p: T -> bool): (r: seq<T>)
    ensures |r| <= |s|
    ensures forall x :: x in r <==> x in s && p(x)
    ensures forall i :: 0 <= i < |r| ==> p(r[i])
    ensures IsSubsequence(r, s)
    ensures forall x :: multiset(r)[x] == if p(x) then multiset(s)[x] else 0
  {
    if |s| == 0 then []
    else
      var rest := Filter(s[1..], p);
      assert s == [s[0]] + s[1..];
      if p(s[0]) then
        var r := [s[0]] + rest;
        assert r[1..] == rest;
        r
      else rest
  }

  /** Applying one query after another selects the rows satisfying both. */
  lemma {:induction false} FilterConjunction<T(!new)>(s: seq<T>, p: T -> bool, q: T -> bool, pq: T -> bool)
    requires forall x :: pq(x) <==> p(x) && q(x)
    ensures Filter(Filter(s, p), q) == Filter(s, pq)
  {
    if |s| > 0 {
      FilterConjunction(s[1..], p, q, pq);
      if p(s[0]) {
        assert Filter(s, p)[1..] == Filter(s[1..], p);
      }
    }
  }

  /** Two complementary queries split the rows: counts add up to the whole. */
  lemma FilterComplementCount<T(!new)>(s: seq<T>, p: T -> bool, q: T -> bool)
    requires forall x :: q(x) <==> !p(x)
    ensures |Filter(s, p)| + |Filter(s, q)| == |s|
    ensures multiset(Filter(s, p)) + multiset(Filter(s, q)) == multiset(s)
  {
    var a := Filter(s, p);
    var b := Filter(s, q);
    assert forall x :: (multiset(a) + multiset(b))[x] == multiset(s)[x];
    assert multiset(a) + multiset(b) == multiset(s);
    assert |multiset(a)| + |multiset(b)| == |multiset(s)|;
  }

  /** Index of the first element satisfying `p`, if any (`->first()`). */
  function FirstIndex<T>(s: seq<T>, p: T -> bool): (r: Option<nat>)
    ensures r.Some? ==> r.value < |s| && p(s[r.value])
    ensures r.Some? ==> forall j :: 0 <= j < r.value ==> !p(s[j])
    ensures r.None? <==> forall j :: 0 <= j < |s| ==> !p(s[j])
  {
    if |s| == 0 then None
    else if p(s[0]) then Some(0)
    else
      match FirstIndex(s[1..], p)
      case None => None
      case Some(i) => Some(i + 1)
  }

  /** No two rows share a key (a unique index on the column `key`). */
  predicate UniqueKeys<T, K(==)>(rows: seq<T>, key: T -> K) {
    forall i, j :: 0 <= i < j < |rows| ==> key(rows[i]) != key(rows[j])
  }

  /** Eloquent `updateOrCreate`: the first row whose key equals `key(row)` is
      replaced by `row`; when there is none, `row` is appended. */
  function Upsert<T(==,!new), K(==)>(rows: seq<T>, key: T -> K, row: T): (r: seq<T>)
    ensures row in r
    ensures forall x :: x in rows && key(x) != key(row) ==> x in r
    ensures forall x :: x in r && key(x) != key(row) ==> x in rows
    ensures (exists x :: x in rows && key(x) == key(row)) ==> |r| == |rows|
    ensures (forall x :: x in rows ==> key(x) != key(row)) ==> r == rows + [row]
    ensures UniqueKeys(rows, key) ==> UniqueKeys(r, key)
    ensures UniqueKeys(rows, key) ==> forall x :: x in r && key(x) == key(row) ==> x == row
  {
    if |rows| == 0 then [row]
    else if key(rows[0]) == key(row) then
      HeadKeyNotInTail(rows, key);
      [row] + rows[1..]
    else
      var rest := Upsert(rows[1..], key, row);
      HeadKeyNotInTail(rows, key);
      [rows[0]] + rest
  }

  /** With unique keys, no later row shares the first row's key. */
  lemma HeadKeyNotInTail<T, K>(rows: seq<T>, key: T -> K)
    requires |rows| > 0
    ensures UniqueKeys(rows, key) ==> forall x :: x in rows[1..] ==> key(x) != key(rows[0])
  {
    if UniqueKeys(rows, key) {
      forall x | x in rows[1..] ensures key(x) != key(rows[0]) {
        var j :| 0 <= j < |rows[1..]| && rows[1..][j] == x;
        assert rows[j + 1] == x;
      }
    }
  }

  lemma {:induction false} SubsequenceMembers<T>(a: seq<T>, b: seq<T>)
    requires IsSubsequence(a, b)
    ensures forall x :: x in a ==> x in b
    decreases |b|
  {
    if |a| > 0 {
      if a[0] == b[0] {
        SubsequenceMembers(a[1..], b[1..]);
        assert forall x :: x in a ==> x == a[0] || x in a[1..];
      } else {
        SubsequenceMembers(a, b[1..]);
      }
    }
  }

  /** Deleting rows never breaks a unique index. */
  lemma {:induction false} SubsequenceKeepsUniqueKeys<T, K>(a: seq<T>, b: seq<T>, key: T -> K)
    requires IsSubsequence(a, b) && UniqueKeys(b, key)
    ensures UniqueKeys(a, key)
    decreases |b|
  {
    if |a| > 0 {
      assert UniqueKeys(b[1..], key) by {
        forall i, j | 0 <= i < j < |b[1..]| ensures key(b[1..][i]) != key(b[1..][j]) {
          assert b[1..][i] == b[i + 1] && b[1..][j] == b[j + 1];
        }
      }
      if a[0] == b[0] {
        SubsequenceKeepsUniqueKeys(a[1..], b[1..], key);
        SubsequenceMembers(a[1..], b[1..]);
        forall j | 0 < j < |a| ensures key(a[0]) != key(a[j]) {
          assert a[j] == a[1..][j - 1];
          assert a[j] in a[1..];
          assert a[j] in b[1..];
          var k :| 0 <= k < |b[1..]| && b[1..][k] == a[j];
          assert b[k + 1] == a[j];
        }
      } else {
        SubsequenceKeepsUniqueKeys(a, b[1..], key);
      }
    }
  }

  /** Putting an element in front of the larger sequence keeps a subsequence. */
  lemma {:induction false} SubsequenceCons<T>(a: seq<T>, c: seq<T>)
    requires |c| > 0 && IsSubsequence(a, c[1..])
    ensures IsSubsequence(a, c)
    decreases |c|, 0
  {
    if |a| > 0 && a[0] == c[0] {
      SubsequenceDropFirst(a, c[1..]);
    }
  }

  /** Dropping the first element of a subsequence keeps a subsequence. */
  lemma {:induction false} SubsequenceDropFirst<T>(a: seq<T>, b: seq<T>)
    requires |a| > 0 && IsSubsequence(a, b)
    ensures IsSubsequence(a[1..], b)
    decreases |b|, 1
  {
    if a[0] == b[0] {
      SubsequenceCons(a[1..], b);
    } else {
      SubsequenceDropFirst(a, b[1..]);
      SubsequenceCons(a[1..], b);
    }
  }

  lemma {:induction false} SubsequenceTransitive<T>(a: seq<T>, b: seq<T>, c: seq<T>)
    requires IsSubsequence(a, b) && IsSubsequence(b, c)
    ensures IsSubsequence(a, c)
    decreases |c|
  {
    if |a| > 0 {
      if b[0] == c[0] {
        if a[0] == b[0] {
          SubsequenceTransitive(a[1..], b[1..], c[1..]);
        } else {
          SubsequenceTransitive(a, b[1..], c[1..]);
          SubsequenceCons(a, c);
        }
      } else {
        SubsequenceTransitive(a, b, c[1..]);
        SubsequenceCons(a, c);
      }
    }
  }
}

=== FILE: blocklist.dfy ===
/** The IP deny list (src/Models/BlockedIp.php). A row without an expiry is a
    permanent block; a row whose expiry has been reached stays in the table
    but no longer blocks. Times are integer seconds. */
module Blocklist {
  import opened Basics

  /** `blocked_by`: the enum column of the blocked_ips table. */
  datatype BlockSource = Auto | Manual

  datatype BlockedIp = BlockedIp(
    ip: string,
    reason: string,
    blockedBy: BlockSource,
    blockedByUser: Option<int>,
    expiresAt: Option<int>)

  function BlockIpOf(b: BlockedIp): string {
    b.ip
  }

  /** The unique index on `ip_address`. */
  predicate WellFormed(rows: seq<BlockedIp>) {
    UniqueKeys(rows, BlockIpOf)
  }

  /** `scopeActive`: no expiry, or an expiry strictly after `now`. */
  predicate IsActive(b: BlockedIp, now: int) {
    b.expiresAt.None? || b.expiresAt.value > now
  }

  /** `isPermanent`. */
  predicate IsPermanent(b: BlockedIp) {
    b.expiresAt.None?
  }

  /** `isExpired`: the expiry lies strictly in the past (Carbon `isPast`).
      A permanent block never expires; an expired block is not active; and at
      the instant `now == expires_at` the row is neither active nor expired. */
  function IsExpired(b: BlockedIp, now: int): (r: bool)
    ensures IsPermanent(b) ==> !r
    ensures r ==> !IsActive(b, now)
    ensures !r && !IsActive(b, now) <==> b.expiresAt == Some(now)
  {
    match b.expiresAt
    case None => false
    case Some(t) => t < now
  }

  /** `isBlocked`: some row for the IP is active at `now`. */
  function IsBlocked(rows: seq<BlockedIp>, ip: string, now: int): (r: bool)
    ensures r <==> exists b :: b in rows && b.ip == ip && IsActive(b, now)
    ensures r ==> exists b :: b in rows && b.ip == ip && (IsPermanent(b) || !IsExpired(b, now))
  {
    var hit := FirstIndex(rows, (b: BlockedIp) => b.ip == ip && IsActive(b, now));
    assert hit.None? ==> forall b :: b in rows ==> !(b.ip == ip && IsActive(b, now)) by {
      if hit.None? {
        forall b | b in rows ensures !(b.ip == ip && IsActive(b, now)) {
          var j :| 0 <= j < |rows| && rows[j] == b;
        }
      }
    }
    hit.Some?
  }

  /** `blockIp`: an upsert keyed by IP that overwrites reason, source, user and
      expiry. Afterwards the IP is blocked exactly while the new expiry is
      active, whatever the row held before. */
  function BlockIp(rows: seq<BlockedIp>, ip: string, reason: string, blockedBy: BlockSource,
                   userId: Option<int>, expiresAt: Option<int>): (r: seq<BlockedIp>)
    ensures BlockedIp(ip, reason, blockedBy, userId, expiresAt) in r
    ensures forall b :: b in rows && b.ip != ip ==> b in r
    ensures forall b :: b in r && b.ip != ip ==> b in rows
    ensures WellFormed(rows) ==> WellFormed(r)
    ensures WellFormed(rows) ==>
      forall b :: b in r && b.ip == ip ==> b == BlockedIp(ip, reason, blockedBy, userId, expiresAt)
    ensures WellFormed(rows) ==>
      forall now :: IsBlocked(r, ip, now) <==> expiresAt.None? || expiresAt.value > now
  {
    Upsert(rows, BlockIpOf, BlockedIp(ip, reason, blockedBy, userId, expiresAt))
  }

  /** `unblockIp`: deletes every row for the IP; nothing else changes. */
  function UnblockIp(rows: seq<BlockedIp>, ip: string): (r: seq<BlockedIp>)
    ensures forall now :: !IsBlocked(r, ip, now)
    ensures forall b :: b in r <==> b in rows && b.ip != ip
    ensures forall other, now :: other != ip ==> (IsBlocked(r, other, now) <==> IsBlocked(rows, other, now))
    ensures WellFormed(rows) ==> WellFormed(r)
  {
    var r := Filter(rows, (b: BlockedIp) => b.ip != ip);
    assert WellFormed(rows) ==> WellFormed(r) by {
      if WellFormed(rows) {
        SubsequenceKeepsUniqueKeys(r, rows, BlockIpOf);
      }
    }
    r
  }
}

=== FILE: captcha.dfy ===
/** The CAPTCHA service (src/Services/CaptchaService.php): issuing challenge
    records, judging a provider's verdict, recording a solve, deciding whether
    an IP must be challenged, and picking the provider widget. The provider's
    HTTP reply and the random token are parameters. */
module CaptchaManager {
  import opened Basics
  import opened Settings
  import opened Challenges

  /** The providers the service knows how to talk to. */
  predicate KnownProvider(provider: string) {
    provider == "turnstile" || provider == "recaptcha_v2" || provider == "recaptcha_v3" || provider == "hcaptcha"
  }

  /** No challenge in the table carries `token`. */
  predicate FreshToken(cs: seq<Challenge>, token: string) {
    forall c :: c in cs ==> c.token != token
  }

  /** `generateChallenge`: one unsolved challenge of the configured provider's
      type is added for the client under the (random) `token`; earlier rows
      are untouched, so a fresh token keeps tokens unique. */
  function GenerateChallenge(cfg: Config, cs: seq<Challenge>, ip: string, userId: Option<int>,
                             token: string, now: int): (r: seq<Challenge>)
    ensures |r| == |cs| + 1 && r[..|cs|] == cs
    ensures var c := r[|cs|];
      && c.ip == ip && c.userId == userId && c.token == token && c.challengeType == cfg.provider
      && !c.isSolved && c.solvedAt.None? && c.createdAt == now
    ensures SolvedTokens(r) == SolvedTokens(cs)
    ensures WellFormed(cs) && FreshToken(cs, token) ==> WellFormed(r)
  {
    var r := cs + [Challenge(ip, userId, cfg.provider, token, false, None, now)];
    assert forall c :: c in r ==> c in cs || c == r[|cs|];
    r
  }

  /** What came back from the provider's verification endpoint: the request
      raised, or it answered with a body whose `success` field may be absent. */
  datatype ProviderReply = Raised | Replied(success: Option<bool>)

  /** The verification endpoint configured for the provider, when truthy. */
  predicate HasVerifyUrl(cfg: Config) {
    cfg.provider in cfg.verifyUrls && !EmptyString(cfg.verifyUrls[cfg.provider])
  }

  /** `verifyChallenge`: passes whenever no secret key is configured; with a
      secret it passes exactly when a known provider has a verification URL
      and answered `success: true`. A missing field, an unknown provider and a
      failed request all fail. */
  function VerifyChallenge(cfg: Config, reply: ProviderReply): (ok: bool)
    ensures ok <==> EmptyString(cfg.secretKey)
                    || (HasVerifyUrl(cfg) && KnownProvider(cfg.provider) && reply == Replied(Some(true)))
  {
    if EmptyString(cfg.secretKey) then true
    else if !HasVerifyUrl(cfg) then false
    else match reply
      case Raised => false
      case Replied(success) => if KnownProvider(cfg.provider) then success.GetOr(false) else false
  }

  /** `recordChallenge`: the first challenge carrying the token is marked
      solved now; an unknown token changes nothing. The caller's `solved`
      flag plays no part. */
  function RecordChallenge(cs: seq<Challenge>, token: string, now: int): (r: seq<Challenge>)
    ensures |r| == |cs|
    ensures FreshToken(cs, token) ==> r == cs
    ensures forall i :: 0 <= i < |cs| ==>
      r[i] == if cs[i].token == token && (forall j :: 0 <= j < i ==> cs[j].token != token)
              then MarkAsSolved(cs[i], now) else cs[i]
    ensures SolvedTokens(cs) <= SolvedTokens(r)
    ensures !FreshToken(cs, token) ==> token in SolvedTokens(r)
    ensures WellFormed(cs) ==> WellFormed(r)
  {
    match FirstIndex(cs, (c: Challenge) => c.token == token)
    case None => cs
    case Some(i) =>
      var r := cs[i := MarkAsSolved(cs[i], now)];
      assert forall k :: 0 <= k < |r| ==> TokenOf(r[k]) == TokenOf(cs[k]);
      assert token == r[i].token && r[i].isSolved;
      forall t | t in SolvedTokens(cs) ensures t in SolvedTokens(r) {
        var c :| c in cs && c.isSolved && c.token == t;
        var k :| 0 <= k < |cs| && cs[k] == c;
        assert r[k] in r && r[k].isSolved && r[k].token == t;
      }
      r
  }

  /** Half an hour: how long a solved challenge spares its IP further ones. */
  const SolvedGraceMinutes: int := 30

  /** A solved challenge of the IP created within the grace period. */
  predicate RecentlySolved(cs: seq<Challenge>, ip: string, now: int) {
    exists c :: c in cs && c.ip == ip && c.isSolved && c.createdAt >= now - SolvedGraceMinutes * SecondsPerMinute
  }

  /** `needsChallenge`: only when CAPTCHAs are enabled and the score reaches
      the trigger threshold, and then only if the IP has no solved challenge
      created in the last 30 minutes. */
  function NeedsChallenge(cfg: Config, cs: seq<Challenge>, ip: string, riskScore: int, now: int): (b: bool)
    ensures b <==> cfg.captchaEnabled && riskScore >= cfg.captchaTriggerThreshold && !RecentlySolved(cs, ip, now)
  {
    if !cfg.captchaEnabled then false
    else if riskScore < cfg.captchaTriggerThreshold then false
    else
      var hits := Recent(Solved(ByIp(cs, ip)), SolvedGraceMinutes, now);
      assert forall c :: c in hits <==> (c in cs && c.ip == ip && c.isSolved
                                         && c.createdAt >= now - SolvedGraceMinutes * SecondsPerMinute);
      if |hits| > 0 then
        assert hits[0] in hits;
        false
      else true
  }

  /** The grace period runs from when the challenge was issued, not from when
      it was solved: a challenge issued more than 30 minutes ago and solved a
      moment ago no longer spares its IP. */
  lemma GraceCountsFromCreation(cfg: Config, c: Challenge, riskScore: int, now: int)
    requires cfg.captchaEnabled && riskScore >= cfg.captchaTriggerThreshold
    requires c.createdAt < now - SolvedGraceMinutes * SecondsPerMinute
    ensures NeedsChallenge(cfg, [MarkAsSolved(c, now)], c.ip, riskScore, now)
    ensures NeedsChallenge(cfg, [MarkAsSolved(c, now)], c.ip, riskScore, now - 1)
         == (c.createdAt < now - 1 - SolvedGraceMinutes * SecondsPerMinute)
  {
  }

  /** Solving a challenge for an IP through `recordChallenge` spares that IP
      for the next half hour after the challenge was issued. */
  lemma RecordingSpares(cfg: Config, cs: seq<Challenge>, token: string, riskScore: int, now: int, later: int)
    requires !FreshToken(cs, token)
    ensures var i := FirstIndex(cs, (c: Challenge) => c.token == token).value;
      later <= cs[i].createdAt + SolvedGraceMinutes * SecondsPerMinute ==>
        !NeedsChallenge(cfg, RecordChallenge(cs, token, now), cs[i].ip, riskScore, later)
  {
    var i := FirstIndex(cs, (c: Challenge) => c.token == token).value;
    var r := RecordChallenge(cs, token, now);
    assert r[i] == MarkAsSolved(cs[i], now);
    assert r[i] in r;
  }

  // ---------------------------------------------------------------------------
  // Provider widgets
  // ---------------------------------------------------------------------------

  /** Which widget `getWidgetHtml` renders; the markup itself is not modelled. */
  datatype Widget =
    | NotConfigured
    | TurnstileWidget(siteKey: string)
    | RecaptchaV2Widget(siteKey: string)
    | RecaptchaV3Widget(siteKey: string)
    | HCaptchaWidget(siteKey: string)
    | UnknownProviderWidget

  /** `getWidgetHtml`: nothing to render without a site key; otherwise the
      provider's widget carrying the site key, or the unknown-provider notice. */
  function WidgetFor(cfg: Config): (w: Widget)
    ensures w == NotConfigured <==> EmptyString(cfg.siteKey)
    ensures w == UnknownProviderWidget <==> !EmptyString(cfg.siteKey) && !KnownProvider(cfg.provider)
    ensures !w.NotConfigured? && !w.UnknownProviderWidget? ==> w.siteKey == cfg.siteKey
  {
    if EmptyString(cfg.siteKey) then NotConfigured
    else if cfg.provider == "turnstile" then TurnstileWidget(cfg.siteKey)
    else if cfg.provider == "recaptcha_v2" then RecaptchaV2Widget(cfg.siteKey)
    else if cfg.provider == "recaptcha_v3" then RecaptchaV3Widget(cfg.siteKey)
    else if cfg.provider == "hcaptcha" then HCaptchaWidget(cfg.siteKey)
    else UnknownProviderWidget
  }

  const TurnstileScript: string := "https://challenges.cloudflare.com/turnstile/v0/api.js"
  const RecaptchaScript: string := "https://www.google.com/recaptcha/api.js"
  const HCaptchaScript: string := "https://js.hcaptcha.com/1/api.js"

  /** `getScriptUrls`: one script per known provider (both reCAPTCHA versions
      share one), none for an unknown provider. */
  function ScriptUrls(provider: string): (r: seq<string>)
    ensures |r| <= 1
    ensures r == [] <==> !KnownProvider(provider)
    ensures provider == "turnstile" ==> r == [TurnstileScript]
    ensures provider == "recaptcha_v2" || provider == "recaptcha_v3" ==> r == [RecaptchaScript]
    ensures provider == "hcaptcha" ==> r == [HCaptchaScript]
  {
    if provider == "turnstile" then [TurnstileScript]
    else if provider == "recaptcha_v2" || provider == "recaptcha_v3" then [RecaptchaScript]
    else if provider == "hcaptcha" then [HCaptchaScript]
    else []
  }

  /** Both reCAPTCHA versions load the same script. */
  lemma RecaptchaVersionsShareScript()
    ensures ScriptUrls("recaptcha_v2") == ScriptUrls("recaptcha_v3") == [RecaptchaScript]
  {
  }

  /** The script the widget's markup loads. */
  function WidgetScript(w: Widget): Option<string> {
    match w
    case NotConfigured => None
    case TurnstileWidget(_) => Some(TurnstileScript)
    case RecaptchaV2Widget(_) => Some(RecaptchaScript)
    case RecaptchaV3Widget(k) => Some(RecaptchaScript + "?render=" + k)
    case HCaptchaWidget(_) => Some(HCaptchaScript)
    case UnknownProviderWidget => None
  }

  /** The widget loads the listed script for every provider but reCAPTCHA v3,
      whose widget loads that script with the site key as `render` query. */
  lemma WidgetScriptAgreesWithScriptUrls(cfg: Config)
    requires !EmptyString(cfg.siteKey) && KnownProvider(cfg.provider)
    ensures cfg.provider != "recaptcha_v3" ==> WidgetScript(WidgetFor(cfg)) == Some(ScriptUrls(cfg.provider)[0])
    ensures cfg.provider == "recaptcha_v3" ==>
      WidgetScript(WidgetFor(cfg)) == Some(ScriptUrls(cfg.provider)[0] + "?render=" + cfg.siteKey)
  {
  }
}

=== FILE: challenges.dfy ===
/** CAPTCHA challenge records (src/Models/CaptchaChallenge.php): issued
    unsolved, flipped to solved at most once, never flipped back. */
module Challenges {
  import opened Basics

  datatype Challenge = Challenge(
    ip: string,
    userId: Option<int>,
    challengeType: string,
    token: string,
    isSolved: bool,
    solvedAt: Option<int>,
    createdAt: int)

  const SecondsPerMinute: int := 60

  /** How long after creation a challenge counts as expired. */
  const LifetimeMinutes: int := 5

  function TokenOf(c: Challenge): string {
    c.token
  }

  /** The unique index on `challenge_token`. */
  predicate WellFormed(cs: seq<Challenge>) {
    UniqueKeys(cs, TokenOf)
  }

  /** Tokens of the challenges that have been solved. */
  function SolvedTokens(cs: seq<Challenge>): set<string> {
    set c | c in cs && c.isSolved :: c.token
  }

  /** `scopeSolved`. */
  function Solved(cs: seq<Challenge>): (r: seq<Challenge>)
    ensures forall c :: c in r <==> c in cs && c.isSolved
    ensures IsSubsequence(r, cs)
    ensures forall c :: multiset(r)[c] == if c.isSolved then multiset(cs)[c] else 0
  {
    Filter(cs, (c: Challenge) => c.isSolved)
  }

  /** `scopeUnsolved`. */
  function Unsolved(cs: seq<Challenge>): (r: seq<Challenge>)
    ensures forall c :: c in r <==> c in cs && !c.isSolved
    ensures IsSubsequence(r, cs)
    ensures forall c :: multiset(r)[c] == if !c.isSolved then multiset(cs)[c] else 0
  {
    Filter(cs, (c: Challenge) => !c.isSolved)
  }

  /** `scopeByIp`. */
  function ByIp(cs: seq<Challenge>, ip: string): (r: seq<Challenge>)
    ensures forall c :: c in r <==> c in cs && c.ip == ip
    ensures IsSubsequence(r, cs)
    ensures forall c :: multiset(r)[c] == if c.ip == ip then multiset(cs)[c] else 0
  {
    Filter(cs, (c: Challenge) => c.ip == ip)
  }

  /** `scopeRecent(m)`: created at or after `now` minus `m` minutes; the solve
      time plays no part. */
  function Recent(cs: seq<Challenge>, minutes: int, now: int): (r: seq<Challenge>)
    ensures forall c :: c in r <==> c in cs && c.createdAt >= now - minutes * SecondsPerMinute
    ensures IsSubsequence(r, cs)
    ensures forall c :: multiset(r)[c]
                     == if c.createdAt >= now - minutes * SecondsPerMinute then multiset(cs)[c] else 0
  {
    Filter(cs, (c: Challenge) => c.createdAt >= now - minutes * SecondsPerMinute)
  }

  /** `solved` and `unsolved` partition the challenges. */
  lemma SolvedUnsolvedPartition(cs: seq<Challenge>)
    ensures |Solved(cs)| + |Unsolved(cs)| == |cs|
    ensures multiset(Solved(cs)) + multiset(Unsolved(cs)) == multiset(cs)
  {
    FilterComplementCount(cs, (c: Challenge) => c.isSolved, (c: Challenge) => !c.isSolved);
  }

  /** `markAsSolved`: the flag is set and the solve time stamped; identity,
      owner, type and creation time are kept. */
  function MarkAsSolved(c: Challenge, now: int): (r: Challenge)
    ensures r.isSolved && r.solvedAt == Some(now)
    ensures r.token == c.token && r.ip == c.ip && r.userId == c.userId
    ensures r.challengeType == c.challengeType && r.createdAt == c.createdAt
  {
    c.(isSolved := true, solvedAt := Some(now))
  }

  /** `isExpired`: more than five minutes have passed since creation. */
  predicate IsExpired(c: Challenge, now: int) {
    now > c.createdAt + LifetimeMinutes * SecondsPerMinute
  }

  /** Solving a challenge does not change whether it has expired; expiry is
      permanent; the boundary instant itself is not yet expired. */
  lemma ExpiryIgnoresSolving(c: Challenge, solvedAt: int, now: int, later: int)
    ensures IsExpired(MarkAsSolved(c, solvedAt), now) == IsExpired(c, now)
    ensures IsExpired(c, now) && later >= now ==> IsExpired(c, later)
    ensures !IsExpired(c, c.createdAt + 300) && IsExpired(c, c.createdAt + 301)
  {
  }
}

=== FILE: counters.dfy ===
/** The Redis counters the rate limiter uses, as a pure map from key to a
    counter cell with an absolute expiry time. A cell whose expiry has been
    reached reads as absent, as Redis drops keys once their TTL runs out. */
module Counters {
  import opened Basics

  datatype Cell = Cell(value: nat, expiresAt: int)

  type Store = map<string, Cell>

  predicate Live(s: Store, key: string, now: int) {
    key in s && s[key].expiresAt > now
  }

  /** `GET key` cast to int: a missing or expired key reads as 0. */
  function Get(s: Store, key: string, now: int): (v: nat)
    ensures !Live(s, key, now) ==> v == 0
  {
    if Live(s, key, now) then s[key].value else 0
  }

  /** `INCR key` followed by `EXPIRE key ttl`: the counter rises by one (from
      0 when missing or expired) and lives for `ttl` more seconds. No other key
      is touched. */
  function IncrWithTtl(s: Store, key: string, ttl: int, now: int): (r: Store)
    ensures ttl > 0 ==> Get(r, key, now) == Get(s, key, now) + 1
    ensures forall t :: now <= t < now + ttl ==> Get(r, key, t) == Get(s, key, now) + 1
    ensures forall t :: t >= now + ttl ==> Get(r, key, t) == 0
    ensures r - {key} == s - {key}
  {
    s[key := Cell(Get(s, key, now) + 1, now + ttl)]
  }

  /** `DEL key`. */
  function Delete(s: Store, key: string): (r: Store)
    ensures forall t :: Get(r, key, t) == 0
    ensures r - {key} == s - {key}
  {
    s - {key}
  }

  /** `DEL` of every key that `KEYS prefix*` returns. */
  function DeletePrefixed(s: Store, prefix: string): (r: Store)
    ensures forall k :: StartsWith(k, prefix) ==> k !in r
    ensures forall k :: !StartsWith(k, prefix) && k in s ==> k in r && r[k] == s[k]
    ensures r.Keys <= s.Keys
  {
    map k | k in s && !StartsWith(k, prefix) :: s[k]
  }
}

=== FILE: detect_bot.dfy ===
/** The specialised bot gate (src/Middleware/DetectBot.php): headless
    browsers and automation tools are refused with 403, suspicious header
    combinations are logged and let through. */
module BotGate {
  import opened Basics
  import opened Settings
  import opened Http
  import DetectionLog
  import RiskScorer

  /** User-agent fragments that give a headless browser away. */
  const HeadlessSignatures: seq<string> := ["headless", "phantomjs", "htmlunit", "zombie"]

  /** User-agent fragments of browser-automation frameworks. */
  const AutomationTools: seq<string> := ["selenium", "webdriver", "puppeteer", "playwright", "cypress"]

  /** Some (lower-case) fragment occurs in the lower-cased user agent. */
  predicate MentionsAny(userAgent: string, fragments: seq<string>) {
    exists f :: f in fragments && Contains(Lower(userAgent), f)
  }

  /** `isHeadlessBrowser`: a headless signature in the user agent, a truthy
      `X-WebDriver` or `Selenium` header, or "chrome" together with
      "headless". The last test can never decide the outcome, since
      "headless" is itself a signature. */
  function IsHeadlessBrowser(req: Request): (b: bool)
    ensures b <==> MentionsAny(UserAgentText(req), HeadlessSignatures)
                   || HasHeader(req, "x-webdriver") || HasHeader(req, "selenium")
  {
    var ua := Lower(UserAgentText(req));
    if Contains(ua, "headless") || Contains(ua, "phantomjs") || Contains(ua, "htmlunit") || Contains(ua, "zombie") then
      assert HeadlessSignatures[0] == "headless" && HeadlessSignatures[1] == "phantomjs";
      assert HeadlessSignatures[2] == "htmlunit" && HeadlessSignatures[3] == "zombie";
      true
    else if HasHeader(req, "x-webdriver") || HasHeader(req, "selenium") then true
    else if Contains(ua, "chrome") && Contains(ua, "headless") then true
    else false
  }

  /** `isAutomationTool`: an automation framework named in the user agent. */
  function IsAutomationTool(req: Request): (b: bool)
    ensures b <==> MentionsAny(UserAgentText(req), AutomationTools)
  {
    var ua := Lower(UserAgentText(req));
    var hit := Contains(ua, "selenium") || Contains(ua, "webdriver") || Contains(ua, "puppeteer")
               || Contains(ua, "playwright") || Contains(ua, "cypress");
    assert AutomationTools[0] == "selenium" && AutomationTools[1] == "webdriver";
    assert AutomationTools[2] == "puppeteer" && AutomationTools[3] == "playwright";
    assert AutomationTools[4] == "cypress";
    hit
  }

  /** The header names in first-appearance order, each once (the keys of the
      request's header bag). */
  function HeaderNames(headers: seq<Header>): (r: seq<string>)
    ensures forall n :: n in r <==> exists h :: h in headers && h.name == n
    ensures forall i, j :: 0 <= i < j < |r| ==> r[i] != r[j]
    ensures |r| <= |headers|
  {
    if |headers| == 0 then []
    else
      var init := headers[..|headers| - 1];
      var last := headers[|headers| - 1];
      var rest := HeaderNames(init);
      assert forall h :: h in headers <==> h in init || h == last;
      if last.name in rest then rest else rest + [last.name]
  }

  /** Both names occur among the headers, `a` first. */
  predicate OrderedPair(headers: seq<Header>, a: string, b: string) {
    && HeaderPosition(headers, a).Some? && HeaderPosition(headers, b).Some?
    && HeaderPosition(headers, a).value < HeaderPosition(headers, b).value
  }

  /** Every name in `names` occurs among the headers, and earlier names
      occur earlier. */
  predicate InFirstAppearanceOrder(headers: seq<Header>, names: seq<string>) {
    forall i, j :: 0 <= i < j < |names| ==> OrderedPair(headers, names[i], names[j])
  }

  /** The names come in the order of their first appearance among the
      headers, which is the order `array_search` counts positions in. */
  lemma {:induction false} HeaderNamesInFirstAppearanceOrder(headers: seq<Header>)
    ensures InFirstAppearanceOrder(headers, HeaderNames(headers))
  {
    if |headers| > 0 {
      var init := headers[..|headers| - 1];
      var last := headers[|headers| - 1];
      var rest := HeaderNames(init);
      var r := HeaderNames(headers);
      HeaderNamesInFirstAppearanceOrder(init);
      assert InFirstAppearanceOrder(init, rest);
      forall i, j | 0 <= i < j < |r|
        ensures OrderedPair(headers, r[i], r[j])
      {
        assert i < |rest| && r[i] == rest[i];
        EarlierNameKeepsPosition(headers, rest[i]);
        if j < |rest| {
          assert r[j] == rest[j];
          EarlierNameKeepsPosition(headers, rest[j]);
        } else {
          assert r[j] == last.name && last.name !in rest;
          LastNamePosition(headers);
        }
      }
    }
  }

  /** A name already among the earlier headers keeps its position when one
      more header is appended. */
  lemma EarlierNameKeepsPosition(headers: seq<Header>, n: string)
    requires |headers| > 0 && n in HeaderNames(headers[..|headers| - 1])
    ensures var init := headers[..|headers| - 1];
      && HeaderPosition(init, n).Some? && HeaderPosition(init, n).value < |init|
      && HeaderPosition(headers, n) == HeaderPosition(init, n)
  {
    var init := headers[..|headers| - 1];
    var h :| h in init && h.name == n;
    var k :| 0 <= k < |init| && init[k] == h;
    PositionInPrefix(headers, |headers| - 1, n);
  }

  /** A name first seen in the last header sits at the last position. */
  lemma LastNamePosition(headers: seq<Header>)
    requires |headers| > 0 && headers[|headers| - 1].name !in HeaderNames(headers[..|headers| - 1])
    ensures HeaderPosition(headers, headers[|headers| - 1].name) == Some(|headers| - 1)
  {
    var init := headers[..|headers| - 1];
    assert forall j :: 0 <= j < |init| ==> init[j] in init && headers[j] == init[j];
  }

  /** Number of the Accept, Accept-Language and Accept-Encoding headers that
      are missing or falsy. */
  function MissingAcceptHeaders(req: Request): (n: nat)
    ensures n <= 3
  {
    (if HasHeader(req, "accept") then 0 else 1)
    + (if HasHeader(req, "accept-language") then 0 else 1)
    + (if HasHeader(req, "accept-encoding") then 0 else 1)
  }

  /** The User-Agent header comes after the first six header names. */
  predicate UserAgentLate(req: Request) {
    var pos := FirstIndex(HeaderNames(req.headers), (n: string) => n == "user-agent");
    pos.Some? && pos.value > 5
  }

  /** `hasSuspiciousHeaders`: a truthy user agent with two or more Accept*
      headers missing, all three missing, or two missing and a late
      User-Agent header. */
  function HasSuspiciousHeaders(req: Request): (b: bool)
    ensures b <==> (Truthy(UserAgent(req)) && MissingAcceptHeaders(req) >= 2)
                   || MissingAcceptHeaders(req) == 3
                   || (MissingAcceptHeaders(req) == 2 && UserAgentLate(req))
  {
    var count := MissingAcceptHeaders(req);
    if Truthy(UserAgent(req)) && count >= 2 then true
    else
      var count' := if UserAgentLate(req) then count + 1 else count;
      count' >= 3
  }

  /** The answer of the gate. */
  datatype Outcome = Denied(message: string) | PassOn

  const HeadlessMessage: string := "Headless browsers are not allowed."
  const AutomationMessage: string := "Automation tools are not allowed."

  const HeadlessScore: int := 90
  const AutomationScore: int := 95
  const SuspiciousScore: int := 75

  const HeadlessReason: string := "Headless browser detected"
  const AutomationReason: string := "Automation tool detected"
  const SuspiciousReason: string := "Suspicious header combination"

  /** `handle`: the headless check first, then automation tools (both 403,
      logged as blocked), then suspicious headers (logged, passed on). */
  function Handle(cfg: Config, logs: seq<DetectionLog.LogEntry>, req: Request, now: int)
    : (r: (seq<DetectionLog.LogEntry>, Outcome))
    ensures r.1.Denied? <==> IsHeadlessBrowser(req) || IsAutomationTool(req)
    ensures IsHeadlessBrowser(req) ==> r.1 == Denied(HeadlessMessage)
    ensures !IsHeadlessBrowser(req) && IsAutomationTool(req) ==> r.1 == Denied(AutomationMessage)
    ensures |logs| <= |r.0| <= |logs| + 1 && r.0[..|logs|] == logs
    ensures |r.0| > |logs| ==>
      && r.0[|logs|].ip == req.ip
      && (r.0[|logs|].action == DetectionLog.Blocked <==> r.1.Denied?)
      && (r.0[|logs|].action == DetectionLog.Logged <==> r.1.PassOn?)
      && (IsHeadlessBrowser(req) ==>
            r.0[|logs|].riskScore == HeadlessScore && r.0[|logs|].reason == HeadlessReason)
      && (!IsHeadlessBrowser(req) && IsAutomationTool(req) ==>
            r.0[|logs|].riskScore == AutomationScore && r.0[|logs|].reason == AutomationReason)
      && (r.1.PassOn? ==>
            r.0[|logs|].riskScore == SuspiciousScore && r.0[|logs|].reason == SuspiciousReason)
    ensures |r.0| == |logs| + 1 <==>
      || (IsHeadlessBrowser(req) && RiskScorer.ShouldLog(cfg, HeadlessScore))
      || (!IsHeadlessBrowser(req) && IsAutomationTool(req) && RiskScorer.ShouldLog(cfg, AutomationScore))
      || (!IsHeadlessBrowser(req) && !IsAutomationTool(req) && HasSuspiciousHeaders(req)
          && RiskScorer.ShouldLog(cfg, SuspiciousScore))
  {
    if IsHeadlessBrowser(req) then
      (RiskScorer.LogDetection(cfg, logs, req, HeadlessScore, HeadlessReason, DetectionLog.Blocked, now),
       Denied(HeadlessMessage))
    else if IsAutomationTool(req) then
      (RiskScorer.LogDetection(cfg, logs, req, AutomationScore, AutomationReason, DetectionLog.Blocked, now),
       Denied(AutomationMessage))
    else if HasSuspiciousHeaders(req) then
      (RiskScorer.LogDetection(cfg, logs, req, SuspiciousScore, SuspiciousReason, DetectionLog.Logged, now),
       PassOn)
    else (logs, PassOn)
  }

  /** A bare request that names no user agent and sends no Accept* headers is
      passed on but logged as suspicious whenever scores of 75 are logged. */
  lemma BareRequestIsLogged(cfg: Config, logs: seq<DetectionLog.LogEntry>, req: Request, now: int)
    requires req.headers == []
    requires RiskScorer.ShouldLog(cfg, SuspiciousScore)
    ensures Handle(cfg, logs, req, now).1 == PassOn
    ensures |Handle(cfg, logs, req, now).0| == |logs| + 1
  {
    assert UserAgentText(req) == "";
    assert Lower("") == "";
    assert forall f :: f in HeadlessSignatures ==> !Contains("", f);
    assert forall f :: f in AutomationTools ==> !Contains("", f);
    assert MissingAcceptHeaders(req) == 3;
  }
}

=== FILE: detection_log.dfy ===
/** The append-only detection log (src/Models/BotDetectionLog.php) and its
    query scopes, each an order-preserving filter over the log rows. */
module DetectionLog {
  import opened Basics
  import opened Http

  /** `action_taken`: the enum column of the bot_detection_logs table. */
  datatype LogAction = Logged | Challenged | Blocked

  datatype LogEntry = LogEntry(
    ip: string,
    userId: Option<int>,
    userAgent: string,
    url: string,
    verb: string,
    reason: string,
    riskScore: int,
    headers: seq<Header>,
    action: LogAction,
    createdAt: int)

  const SecondsPerHour: int := 3600

  /** `highRisk(t)`: entries scoring at least `t` (inclusive). */
  function HighRisk(logs: seq<LogEntry>, threshold: int): (r: seq<LogEntry>)
    ensures forall e :: e in r <==> e in logs && e.riskScore >= threshold
    ensures IsSubsequence(r, logs)
    ensures forall e :: multiset(r)[e] == if e.riskScore >= threshold then multiset(logs)[e] else 0
  {
    Filter(logs, (e: LogEntry) => e.riskScore >= threshold)
  }

  /** `byAction`. */
  function ByAction(logs: seq<LogEntry>, action: LogAction): (r: seq<LogEntry>)
    ensures forall e :: e in r <==> e in logs && e.action == action
    ensures IsSubsequence(r, logs)
    ensures forall e :: multiset(r)[e] == if e.action == action then multiset(logs)[e] else 0
  {
    Filter(logs, (e: LogEntry) => e.action == action)
  }

  /** `byIp`. */
  function ByIp(logs: seq<LogEntry>, ip: string): (r: seq<LogEntry>)
    ensures forall e :: e in r <==> e in logs && e.ip == ip
    ensures IsSubsequence(r, logs)
    ensures forall e :: multiset(r)[e] == if e.ip == ip then multiset(logs)[e] else 0
  {
    Filter(logs, (e: LogEntry) => e.ip == ip)
  }

  /** `dateRange(from, to)`: both bounds inclusive; the upper bound applies only
      when one is given. */
  function DateRange(logs: seq<LogEntry>, from: int, to: Option<int>): (r: seq<LogEntry>)
    ensures forall e :: e in r <==> e in logs && from <= e.createdAt && (to.Some? ==> e.createdAt <= to.value)
    ensures to.None? ==> forall e :: e in logs && e.createdAt >= from ==> e in r
    ensures IsSubsequence(r, logs)
    ensures forall e :: multiset(r)[e]
                     == if from <= e.createdAt && (to.Some? ==> e.createdAt <= to.value) then multiset(logs)[e] else 0
  {
    var lower := Filter(logs, (e: LogEntry) => e.createdAt >= from);
    match to
    case None => lower
    case Some(t) =>
      var r := Filter(lower, (e: LogEntry) => e.createdAt <= t);
      SubsequenceTransitive(r, lower, logs);
      r
  }

  /** `recent(h)`: entries created at or after `now` minus `h` hours. */
  function Recent(logs: seq<LogEntry>, hours: int, now: int): (r: seq<LogEntry>)
    ensures forall e :: e in r <==> e in logs && e.createdAt >= now - hours * SecondsPerHour
    ensures IsSubsequence(r, logs)
    ensures forall e :: multiset(r)[e]
                     == if e.createdAt >= now - hours * SecondsPerHour then multiset(logs)[e] else 0
  {
    Filter(logs, (e: LogEntry) => e.createdAt >= now - hours * SecondsPerHour)
  }

  /** Chaining `byIp`, `highRisk` and `recent` (as the scorer does) keeps
      exactly the entries meeting all three conditions, in log order. */
  lemma ChainedScopes(logs: seq<LogEntry>, ip: string, threshold: int, hours: int, now: int)
    ensures Recent(HighRisk(ByIp(logs, ip), threshold), hours, now)
         == Filter(logs, (e: LogEntry) => e.ip == ip && e.riskScore >= threshold
                                          && e.createdAt >= now - hours * SecondsPerHour)
    ensures IsSubsequence(Recent(HighRisk(ByIp(logs, ip), threshold), hours, now), logs)
  {
    var p := (e: LogEntry) => e.ip == ip;
    var q := (e: LogEntry) => e.riskScore >= threshold;
    var t := (e: LogEntry) => e.createdAt >= now - hours * SecondsPerHour;
    var pq := (e: LogEntry) => e.ip == ip && e.riskScore >= threshold;
    var pqt := (e: LogEntry) => e.ip == ip && e.riskScore >= threshold
                                && e.createdAt >= now - hours * SecondsPerHour;
    FilterConjunction(logs, p, q, pq);
    FilterConjunction(logs, pq, t, pqt);
    SubsequenceTransitive(Filter(Filter(logs, p), q), Filter(logs, p), logs);
    SubsequenceTransitive(Recent(HighRisk(ByIp(logs, ip), threshold), hours, now),
                          Filter(Filter(logs, p), q), logs);
  }
}

=== FILE: http.dfy ===
/** The read-only view of an inbound request that the middleware and services
    consult. Header names are stored lower-cased, as Symfony's header bag keeps
    them; a lookup returns the first value stored under the name. */
module Http {
  import opened Basics

  datatype Header = Header(name: string, value: string)

  datatype Request = Request(
    ip: string,
    verb: string,                // upper-case, as `Request::method()` returns it
    url: string,                 // `fullUrl()`
    headers: seq<Header>,
    userId: Option<int>,         // `auth()->id()`
    hasCaptchaVerified: bool)    // `$request->has('captcha_verified')`

  /** Position of the first header stored under `name`. */
  function HeaderPosition(headers: seq<Header>, name: string): (r: Option<nat>)
    ensures r.Some? ==> r.value < |headers| && headers[r.value].name == name
    ensures r.Some? ==> forall j :: 0 <= j < r.value ==> headers[j].name != name
    ensures r.None? <==> forall j :: 0 <= j < |headers| ==> headers[j].name != name
  {
    FirstIndex(headers, (h: Header) => h.name == name)
  }

  /** Headers appended after the first `name` header do not move it. */
  lemma PositionInPrefix(headers: seq<Header>, k: nat, name: string)
    requires k <= |headers| && HeaderPosition(headers[..k], name).Some?
    ensures HeaderPosition(headers, name) == HeaderPosition(headers[..k], name)
  {
    var p := HeaderPosition(headers[..k], name).value;
    assert headers[p] == headers[..k][p];
    assert forall j :: 0 <= j < p ==> headers[j] == headers[..k][j];
  }

  /** `$request->header(name)`: the value, or null when the header is absent. */
  function HeaderValue(headers: seq<Header>, name: string): Option<string> {
    match HeaderPosition(headers, name)
    case None => None
    case Some(i) => Some(headers[i].value)
  }

  /** PHP truthiness of a nullable string: null, "" and "0" are falsy. */
  predicate Truthy(v: Option<string>) {
    v.Some? && !EmptyString(v.value)
  }

  /** `if ($request->header(name))`. */
  predicate HasHeader(r: Request, name: string) {
    Truthy(HeaderValue(r.headers, name))
  }

  /** `$request->userAgent()`. */
  function UserAgent(r: Request): Option<string> {
    HeaderValue(r.headers, "user-agent")
  }

  /** `$request->userAgent() ?? ''`. */
  function UserAgentText(r: Request): string {
    UserAgent(r).GetOr("")
  }

  /** `auth()->id()` used as a condition (`$userId ?`): 0 and null are falsy. */
  predicate LoggedIn(userId: Option<int>) {
    userId.Some? && userId.value != 0
  }
}

=== FILE: rate_limiter.dfy ===
/** The fixed-window rate limiter (src/Services/RateLimitService.php).
    Counters live in the Redis model of module Counters, keyed by identity,
    window and window bucket; the tier never enters a key. */
module RateLimiter {
  import opened Basics
  import opened Settings
  import opened Http
  import opened Counters
  import opened Blocklist

  datatype Window = Minute | Hour

  function WindowName(w: Window): string {
    match w
    case Minute => "minute"
    case Hour => "hour"
  }

  function WindowSeconds(w: Window): int {
    match w
    case Minute => 60
    case Hour => 3600
  }

  /** `floor(time() / 60)` or `floor(time() / 3600)`. */
  function Bucket(w: Window, now: int): (b: int)
    ensures b * WindowSeconds(w) <= now < (b + 1) * WindowSeconds(w)
  {
    now / WindowSeconds(w)
  }

  /** `user:<id>` for a logged-in user, `ip:<ip>` otherwise. */
  function Identifier(ip: string, userId: Option<int>): string {
    if LoggedIn(userId) then "user:" + IntToString(userId.value) else "ip:" + ip
  }

  /** The part of a counter key before the window name:
      `<prefix>ratelimit:<identifier>:`. It is also the `KEYS` pattern (minus
      the `*`) that `clearRateLimit` deletes by. */
  function KeyHead(prefix: string, ip: string, userId: Option<int>): string {
    prefix + ("ratelimit:" + Identifier(ip, userId) + ":")
  }

  /** `getKey`: prefix, identity, window name and bucket; no tier. */
  function CounterKey(prefix: string, ip: string, userId: Option<int>, w: Window, now: int): string {
    KeyHead(prefix, ip, userId) + (WindowName(w) + ":" + IntToString(Bucket(w, now)))
  }

  /** The per-IP violation counter. */
  function ViolationKey(prefix: string, ip: string): string {
    prefix + ("violations:" + ip)
  }

  lemma CounterKeyShape(prefix: string, ip: string, userId: Option<int>, w: Window, now: int)
    ensures var k := CounterKey(prefix, ip, userId, w, now);
            var head := KeyHead(prefix, ip, userId);
      && |k| > |head| > |prefix|
      && StartsWith(k, head)
      && k[|prefix|] == 'r'
      && k[|head|] == WindowName(w)[0]
  {
    var k := CounterKey(prefix, ip, userId, w, now);
    var head := KeyHead(prefix, ip, userId);
    assert k[..|head|] == head;
    assert k[|prefix|] == head[|prefix|];
  }

  /** The minute counter, the hour counter and any violation counter are three
      different keys, so bumping one never moves another. */
  lemma KeysDistinct(prefix: string, ip: string, userId: Option<int>, t1: int, t2: int, other: string)
    ensures CounterKey(prefix, ip, userId, Minute, t1) != CounterKey(prefix, ip, userId, Hour, t2)
    ensures CounterKey(prefix, ip, userId, Minute, t1) != ViolationKey(prefix, other)
    ensures CounterKey(prefix, ip, userId, Hour, t2) != ViolationKey(prefix, other)
  {
    CounterKeyShape(prefix, ip, userId, Minute, t1);
    CounterKeyShape(prefix, ip, userId, Hour, t2);
    assert ViolationKey(prefix, other)[|prefix|] == 'v';
  }

  /** Two keys of one identity and window coincide only within one bucket:
      a new bucket starts a fresh counter. */
  lemma BucketKeyInjective(prefix: string, ip: string, userId: Option<int>, w: Window, t1: int, t2: int)
    requires CounterKey(prefix, ip, userId, w, t1) == CounterKey(prefix, ip, userId, w, t2)
    ensures Bucket(w, t1) == Bucket(w, t2)
  {
    var mid := WindowName(w) + ":";
    var s1 := IntToString(Bucket(w, t1));
    var s2 := IntToString(Bucket(w, t2));
    PrefixCancel(KeyHead(prefix, ip, userId), mid + s1, mid + s2);
    PrefixCancel(mid, s1, s2);
    IntToStringInjective(Bucket(w, t1), Bucket(w, t2));
  }

  // ---------------------------------------------------------------------------
  // Tiers
  // ---------------------------------------------------------------------------

  /** The tier `checkRateLimit` uses: `anonymous` is upgraded to
      `authenticated` for a logged-in user; any other tier is kept. */
  function ResolveTier(tier: string, userId: Option<int>): (t: string)
    ensures t != tier ==> tier == "anonymous" && LoggedIn(userId) && t == "authenticated"
    ensures tier == "anonymous" && LoggedIn(userId) ==> t == "authenticated"
  {
    if tier == "anonymous" && LoggedIn(userId) then "authenticated" else tier
  }

  /** Fallback limits of `checkRateLimit` for a tier that is not configured. */
  const CheckFallback: TierLimits := TierLimits(Some(60), Some(500))

  /** Fallback limits of `getRemainingAttempts` and `getRateLimitHeaders`. */
  const HeaderFallback: TierLimits := TierLimits(Some(60), None)

  /** `config("anti-crawler.rate_limits.{tier}", fallback)`. */
  function LimitsFor(cfg: Config, tier: string, fallback: TierLimits): TierLimits {
    if tier in cfg.rateLimits then cfg.rateLimits[tier] else fallback
  }

  /** `$limits['per_minute'] ?? 60`. */
  function MinuteLimit(limits: TierLimits): int {
    limits.perMinute.GetOr(60)
  }

  // ---------------------------------------------------------------------------
  // checkRateLimit
  // ---------------------------------------------------------------------------

  datatype RateCheck =
    | Allowed(limit: int, remaining: int)
    | Denied(window: Window, limit: int, retryAfter: int)
  {
    /** The `remaining` entry of the result array; 0 on every denial. */
    function Remaining(): int {
      match this
      case Allowed(_, rem) => rem
      case Denied(_, _, _) => 0
    }
  }

  /** The limits `checkRateLimit` applies to a request. */
  function CheckedLimits(cfg: Config, tier: string, userId: Option<int>): TierLimits {
    LimitsFor(cfg, ResolveTier(tier, userId), CheckFallback)
  }

  function MinuteCount(cfg: Config, s: Store, ip: string, userId: Option<int>, now: int): nat {
    Get(s, CounterKey(cfg.redisPrefix, ip, userId, Minute, now), now)
  }

  function HourCount(cfg: Config, s: Store, ip: string, userId: Option<int>, now: int): nat {
    Get(s, CounterKey(cfg.redisPrefix, ip, userId, Hour, now), now)
  }

  /** `checkRateLimit`: the minute limit is checked first and, when exceeded,
      decides alone (retry after 60 s); the hour limit only when configured
      (retry after 3600 s). An allowed request has at least one attempt left. */
  function CheckRateLimit(cfg: Config, s: Store, ip: string, userId: Option<int>, tier: string, now: int)
    : (r: RateCheck)
    ensures var limits := CheckedLimits(cfg, tier, userId);
      && ((r.Denied? && r.window == Minute)
          <==> MinuteCount(cfg, s, ip, userId, now) >= MinuteLimit(limits))
      && ((r.Denied? && r.window == Hour)
          <==> (&& MinuteCount(cfg, s, ip, userId, now) < MinuteLimit(limits)
                && limits.perHour.Some?
                && HourCount(cfg, s, ip, userId, now) >= limits.perHour.value))
      && (r.Denied? && r.window == Minute ==> r.retryAfter == 60 && r.limit == MinuteLimit(limits))
      && (r.Denied? && r.window == Hour ==> r.retryAfter == 3600 && r.limit == limits.perHour.value)
      && (r.Allowed? ==> && r.limit == MinuteLimit(limits)
                         && r.remaining == MinuteLimit(limits) - MinuteCount(cfg, s, ip, userId, now)
                         && r.remaining >= 1)
    ensures r.Denied? ==> r.Remaining() == 0
  {
    var limits := CheckedLimits(cfg, tier, userId);
    var minuteCount := MinuteCount(cfg, s, ip, userId, now);
    var minuteLimit := MinuteLimit(limits);
    if minuteCount >= minuteLimit then
      Denied(Minute, minuteLimit, 60)
    else if limits.perHour.Some? && HourCount(cfg, s, ip, userId, now) >= limits.perHour.value then
      Denied(Hour, limits.perHour.value, 3600)
    else
      Allowed(minuteLimit, minuteLimit - minuteCount)
  }

  /** A minute-limit denial does not depend on the hour counter at all: any
      value stored under the hour key gives the same verdict. */
  lemma MinuteDenialIgnoresHourCounter(cfg: Config, s: Store, ip: string, userId: Option<int>,
                                       tier: string, now: int, cell: Cell)
    requires MinuteCount(cfg, s, ip, userId, now) >= MinuteLimit(CheckedLimits(cfg, tier, userId))
    ensures var s' := s[CounterKey(cfg.redisPrefix, ip, userId, Hour, now) := cell];
      CheckRateLimit(cfg, s', ip, userId, tier, now) == CheckRateLimit(cfg, s, ip, userId, tier, now)
      == Denied(Minute, MinuteLimit(CheckedLimits(cfg, tier, userId)), 60)
  {
    KeysDistinct(cfg.redisPrefix, ip, userId, now, now, ip);
  }

  // ---------------------------------------------------------------------------
  // incrementCounter, trackViolations
  // ---------------------------------------------------------------------------

  /** `incrementCounter` (with `trackViolations`): the minute counter (TTL
      60 s), the hour counter (TTL 3600 s) and the IP's violation counter
      (TTL 3600 s) each rise by exactly one; every other key is untouched.
      The tier argument is accepted and ignored, as in the source. */
  function IncrementCounter(cfg: Config, s: Store, ip: string, userId: Option<int>, tier: string, now: int)
    : (r: Store)
    ensures var mk := CounterKey(cfg.redisPrefix, ip, userId, Minute, now);
            var hk := CounterKey(cfg.redisPrefix, ip, userId, Hour, now);
            var vk := ViolationKey(cfg.redisPrefix, ip);
      && Get(r, mk, now) == Get(s, mk, now) + 1
      && Get(r, hk, now) == Get(s, hk, now) + 1
      && Get(r, vk, now) == Get(s, vk, now) + 1
      && r - {mk, hk, vk} == s - {mk, hk, vk}
    // the minute counter expires 60 s from now, the hour and violation counters 3600 s
    ensures var mk := CounterKey(cfg.redisPrefix, ip, userId, Minute, now);
      mk in r && r[mk] == Cell(Get(s, mk, now) + 1, now + 60)
    ensures var hk := CounterKey(cfg.redisPrefix, ip, userId, Hour, now);
      hk in r && r[hk] == Cell(Get(s, hk, now) + 1, now + 3600)
    ensures var vk := ViolationKey(cfg.redisPrefix, ip);
      vk in r && r[vk] == Cell(Get(s, vk, now) + 1, now + 3600)
  {
    var mk := CounterKey(cfg.redisPrefix, ip, userId, Minute, now);
    var hk := CounterKey(cfg.redisPrefix, ip, userId, Hour, now);
    var vk := ViolationKey(cfg.redisPrefix, ip);
    KeysDistinct(cfg.redisPrefix, ip, userId, now, now, ip);
    var s1 := IncrWithTtl(s, mk, 60, now);
    var s2 := IncrWithTtl(s1, hk, 3600, now);
    var r := IncrWithTtl(s2, vk, 3600, now);
    assert Get(s2, mk, now) == Get(s1, mk, now) by {
      assert mk in s2 - {hk} <==> mk in s1 - {hk};
    }
    assert Get(r, mk, now) == Get(s2, mk, now) by {
      assert mk in r - {vk} <==> mk in s2 - {vk};
    }
    assert Get(r, hk, now) == Get(s2, hk, now) by {
      assert hk in r - {vk} <==> hk in s2 - {vk};
    }
    assert mk in s1 && mk in s2 && mk in r && r[mk] == s2[mk] == s1[mk] by {
      assert mk in s2 - {hk} && (s2 - {hk})[mk] == (s1 - {hk})[mk];
      assert mk in r - {vk} && (r - {vk})[mk] == (s2 - {vk})[mk];
    }
    assert hk in s2 && hk in r && r[hk] == s2[hk] by {
      assert hk in r - {vk} && (r - {vk})[hk] == (s2 - {vk})[hk];
    }
    r
  }

  /** Read at any later instant, the minute counter shows the raised count
      for 60 s and nothing afterwards; the hour and violation counters do the
      same over 3600 s. */
  lemma CounterLifetimes(cfg: Config, s: Store, ip: string, userId: Option<int>, tier: string, now: int)
    ensures var r := IncrementCounter(cfg, s, ip, userId, tier, now);
            var mk := CounterKey(cfg.redisPrefix, ip, userId, Minute, now);
      && (forall t :: now <= t < now + 60 ==> Get(r, mk, t) == Get(s, mk, now) + 1)
      && (forall t :: t >= now + 60 ==> Get(r, mk, t) == 0)
    ensures var r := IncrementCounter(cfg, s, ip, userId, tier, now);
            var hk := CounterKey(cfg.redisPrefix, ip, userId, Hour, now);
      && (forall t :: now <= t < now + 3600 ==> Get(r, hk, t) == Get(s, hk, now) + 1)
      && (forall t :: t >= now + 3600 ==> Get(r, hk, t) == 0)
    ensures var r := IncrementCounter(cfg, s, ip, userId, tier, now);
            var vk := ViolationKey(cfg.redisPrefix, ip);
      && (forall t :: now <= t < now + 3600 ==> Get(r, vk, t) == Get(s, vk, now) + 1)
      && (forall t :: t >= now + 3600 ==> Get(r, vk, t) == 0)
  {
  }

  // ---------------------------------------------------------------------------
  // getRemainingAttempts, getRateLimitHeaders
  // ---------------------------------------------------------------------------

  /** The per-minute limit reported to the client: the tier as given (never
      upgraded), falling back to 60. */
  function ReportedLimit(cfg: Config, tier: string): int {
    MinuteLimit(LimitsFor(cfg, tier, HeaderFallback))
  }

  /** `getRemainingAttempts`: what is left of the minute limit, never
      negative; zero exactly when the counter has reached the limit. */
  function GetRemainingAttempts(cfg: Config, s: Store, ip: string, userId: Option<int>, tier: string, now: int)
    : (n: int)
    ensures n >= 0
    ensures n == 0 <==> MinuteCount(cfg, s, ip, userId, now) >= ReportedLimit(cfg, tier)
    ensures n > 0 ==> n + MinuteCount(cfg, s, ip, userId, now) == ReportedLimit(cfg, tier)
  {
    var remaining := ReportedLimit(cfg, tier) - MinuteCount(cfg, s, ip, userId, now);
    if remaining > 0 then remaining else 0
  }

  datatype RateHeaders = RateHeaders(limit: int, remaining: int, reset: int)

  /** `getRateLimitHeaders`: `X-RateLimit-Remaining` agrees with
      `getRemainingAttempts` for the same tier, and `X-RateLimit-Reset` is the
      start of the next minute: a multiple of 60 within the coming 60 s. */
  function RateLimitHeaders(cfg: Config, s: Store, ip: string, userId: Option<int>, tier: string, now: int)
    : (h: RateHeaders)
    ensures h.limit == ReportedLimit(cfg, tier)
    ensures h.remaining == GetRemainingAttempts(cfg, s, ip, userId, tier, now)
    ensures h.remaining >= 0
    ensures h.reset % 60 == 0 && now < h.reset <= now + 60
  {
    var limit := ReportedLimit(cfg, tier);
    var remaining := limit - MinuteCount(cfg, s, ip, userId, now);
    RateHeaders(limit, if remaining > 0 then remaining else 0, (Bucket(Minute, now) + 1) * 60)
  }

  // ---------------------------------------------------------------------------
  // blockIpTemporarily
  // ---------------------------------------------------------------------------

  datatype Escalation = Escalation(blocked: seq<BlockedIp>, counters: Store)

  function ViolationCount(cfg: Config, s: Store, ip: string, now: int): nat {
    Get(s, ViolationKey(cfg.redisPrefix, ip), now)
  }

  /** `blockIpTemporarily`: once the violation counter has reached the
      auto-block threshold, the IP gets an automatic block expiring `minutes`
      from now and its violation counter is deleted; below the threshold
      nothing changes. Other IPs' blocks and other keys are never touched. */
  function BlockIpTemporarily(cfg: Config, blocked: seq<BlockedIp>, s: Store, ip: string, minutes: int, now: int)
    : (r: Escalation)
    ensures ViolationCount(cfg, s, ip, now) < cfg.autoBlockThreshold ==> r == Escalation(blocked, s)
    ensures ViolationCount(cfg, s, ip, now) >= cfg.autoBlockThreshold ==>
      && (exists b :: b in r.blocked && b.ip == ip && b.blockedBy == Auto
                      && b.blockedByUser.None? && b.expiresAt == Some(now + minutes * 60))
      && ViolationCount(cfg, r.counters, ip, now) == 0
      && r.counters - {ViolationKey(cfg.redisPrefix, ip)} == s - {ViolationKey(cfg.redisPrefix, ip)}
      && (WellFormed(blocked) ==> forall t :: IsBlocked(r.blocked, ip, t) <==> t < now + minutes * 60)
    ensures forall b :: b in blocked && b.ip != ip ==> b in r.blocked
    ensures forall b :: b in r.blocked && b.ip != ip ==> b in blocked
    ensures WellFormed(blocked) ==> WellFormed(r.blocked)
  {
    var violations := ViolationCount(cfg, s, ip, now);
    if violations >= cfg.autoBlockThreshold then
      var reason := "Automatically blocked after " + IntToString(violations) + " rate limit violations";
      Escalation(BlockIp(blocked, ip, reason, Auto, None, Some(now + minutes * 60)),
                 Delete(s, ViolationKey(cfg.redisPrefix, ip)))
    else
      Escalation(blocked, s)
  }

  // ---------------------------------------------------------------------------
  // clearRateLimit
  // ---------------------------------------------------------------------------

  /** `clearRateLimit`: deletes every rate counter of the IP identity (every
      window and bucket) and, for a logged-in user, every counter of the user
      identity. Keys outside those two prefixes, the violation counter
      included, are kept. */
  function ClearRateLimit(cfg: Config, s: Store, ip: string, userId: Option<int>): (r: Store)
    ensures forall w, t :: CounterKey(cfg.redisPrefix, ip, None, w, t) !in r
    ensures LoggedIn(userId) ==> forall w, t :: CounterKey(cfg.redisPrefix, ip, userId, w, t) !in r
    ensures forall k :: k in s && !StartsWith(k, KeyHead(cfg.redisPrefix, ip, None))
                        && !(LoggedIn(userId) && StartsWith(k, KeyHead(cfg.redisPrefix, ip, userId)))
                        ==> k in r && r[k] == s[k]
    ensures forall other :: ViolationKey(cfg.redisPrefix, other) in s ==>
      ViolationKey(cfg.redisPrefix, other) in r
    ensures r.Keys <= s.Keys
  {
    var p := cfg.redisPrefix;
    forall w, t ensures StartsWith(CounterKey(p, ip, None, w, t), KeyHead(p, ip, None)) {
      CounterKeyShape(p, ip, None, w, t);
    }
    forall other, u: Option<int> ensures !StartsWith(ViolationKey(p, other), KeyHead(p, ip, u)) {
      assert ViolationKey(p, other)[|p|] == 'v';
      assert KeyHead(p, ip, u)[|p|] == 'r';
    }
    var s1 := DeletePrefixed(s, KeyHead(p, ip, None));
    if LoggedIn(userId) then
      forall w, t ensures StartsWith(CounterKey(p, ip, userId, w, t), KeyHead(p, ip, userId)) {
        CounterKeyShape(p, ip, userId, w, t);
      }
      DeletePrefixed(s1, KeyHead(p, ip, userId))
    else
      s1
  }

  // ---------------------------------------------------------------------------
  // Several requests in a row
  // ---------------------------------------------------------------------------

  /** The counters after `n` forwarded requests from one client at one
      instant: each forwarded request adds exactly one to each of the
      client's three counters. */
  function ForwardRepeatedly(cfg: Config, s: Store, ip: string, userId: Option<int>, tier: string, n: nat, now: int)
    : (r: Store)
    ensures MinuteCount(cfg, r, ip, userId, now) == MinuteCount(cfg, s, ip, userId, now) + n
    ensures HourCount(cfg, r, ip, userId, now) == HourCount(cfg, s, ip, userId, now) + n
    ensures ViolationCount(cfg, r, ip, now) == ViolationCount(cfg, s, ip, now) + n
    decreases n
  {
    if n == 0 then s
    else IncrementCounter(cfg, ForwardRepeatedly(cfg, s, ip, userId, tier, n - 1, now), ip, userId, tier, now)
  }

  /** With per-minute limit L and a fresh minute bucket, the first L requests
      are allowed (while the hour limit holds) and the next one is denied by
      the minute limit with a 60-second retry. */
  lemma MinuteLimitBoundary(cfg: Config, s: Store, ip: string, userId: Option<int>, tier: string, k: nat, now: int)
    requires MinuteCount(cfg, s, ip, userId, now) == 0
    ensures var limits := CheckedLimits(cfg, tier, userId);
            var r := CheckRateLimit(cfg, ForwardRepeatedly(cfg, s, ip, userId, tier, k, now), ip, userId, tier, now);
      && (k >= MinuteLimit(limits) ==> r == Denied(Minute, MinuteLimit(limits), 60))
      && (k < MinuteLimit(limits)
          && (limits.perHour.None? || HourCount(cfg, s, ip, userId, now) + k < limits.perHour.value)
          ==> r == Allowed(MinuteLimit(limits), MinuteLimit(limits) - k))
  {
  }

  /** The violation counter is bumped by every forwarded request, so when the
      per-minute limit is at least the auto-block threshold the very first
      denial in a fresh minute already finds enough "violations" and blocks
      the IP. */
  lemma FirstDenialAutoBlocks(cfg: Config, blocked: seq<BlockedIp>, s: Store, ip: string, userId: Option<int>,
                              tier: string, minutes: int, now: int)
    requires MinuteCount(cfg, s, ip, userId, now) == 0
    requires MinuteLimit(CheckedLimits(cfg, tier, userId)) >= cfg.autoBlockThreshold
    requires minutes > 0 && WellFormed(blocked)
    ensures var s' := ForwardRepeatedly(cfg, s, ip, userId, tier, Allowance(cfg, tier, userId), now);
      && CheckRateLimit(cfg, s', ip, userId, tier, now).Denied?
      && IsBlocked(BlockIpTemporarily(cfg, blocked, s', ip, minutes, now).blocked, ip, now)
  {
    var s' := ForwardRepeatedly(cfg, s, ip, userId, tier, Allowance(cfg, tier, userId), now);
    AllowanceReachesLimits(cfg, s, ip, userId, tier, now);
    DenialWithViolationsBlocks(cfg, blocked, s', ip, userId, tier, minutes, now);
  }

  /** Using up the allowance of a fresh minute brings the minute counter to
      the limit and the violation counter to at least the auto-block
      threshold, when the limit is at least that threshold. */
  lemma AllowanceReachesLimits(cfg: Config, s: Store, ip: string, userId: Option<int>, tier: string, now: int)
    requires MinuteCount(cfg, s, ip, userId, now) == 0
    requires MinuteLimit(CheckedLimits(cfg, tier, userId)) >= cfg.autoBlockThreshold
    ensures var s' := ForwardRepeatedly(cfg, s, ip, userId, tier, Allowance(cfg, tier, userId), now);
      && MinuteCount(cfg, s', ip, userId, now) >= MinuteLimit(CheckedLimits(cfg, tier, userId))
      && ViolationCount(cfg, s', ip, now) >= cfg.autoBlockThreshold
  {
  }

  /** How many requests the minute limit lets through in a fresh minute. */
  function Allowance(cfg: Config, tier: string, userId: Option<int>): nat {
    var limit := MinuteLimit(CheckedLimits(cfg, tier, userId));
    if limit > 0 then limit else 0
  }

  /** A client at its minute limit whose violation counter has reached the
      threshold is denied, and the escalation then blocks its IP. */
  lemma DenialWithViolationsBlocks(cfg: Config, blocked: seq<BlockedIp>, s: Store, ip: string,
                                   userId: Option<int>, tier: string, minutes: int, now: int)
    requires MinuteCount(cfg, s, ip, userId, now) >= MinuteLimit(CheckedLimits(cfg, tier, userId))
    requires ViolationCount(cfg, s, ip, now) >= cfg.autoBlockThreshold
    requires minutes > 0 && WellFormed(blocked)
    ensures CheckRateLimit(cfg, s, ip, userId, tier, now).Denied?
    ensures IsBlocked(BlockIpTemporarily(cfg, blocked, s, ip, minutes, now).blocked, ip, now)
  {
  }

  /** Fixed windows: a request counted in one minute bucket leaves the minute
      counter of any other bucket unchanged. */
  lemma NewMinuteBucketStartsFresh(cfg: Config, s: Store, ip: string, userId: Option<int>, tier: string,
                                   t1: int, t2: int)
    requires Bucket(Minute, t1) != Bucket(Minute, t2)
    ensures MinuteCount(cfg, IncrementCounter(cfg, s, ip, userId, tier, t1), ip, userId, t2)
         == MinuteCount(cfg, s, ip, userId, t2)
  {
    var p := cfg.redisPrefix;
    var mk2 := CounterKey(p, ip, userId, Minute, t2);
    var keys := {CounterKey(p, ip, userId, Minute, t1), CounterKey(p, ip, userId, Hour, t1), ViolationKey(p, ip)};
    if mk2 == CounterKey(p, ip, userId, Minute, t1) {
      BucketKeyInjective(p, ip, userId, Minute, t2, t1);
    }
    KeysDistinct(p, ip, userId, t2, t1, ip);
    assert mk2 !in keys;
    var r := IncrementCounter(cfg, s, ip, userId, tier, t1);
    assert mk2 in r <==> mk2 in r - keys;
    assert mk2 in s <==> mk2 in s - keys;
  }

  /** The response headers use the tier as requested, not the upgraded one: a
      logged-in user on the default tier is checked against the authenticated
      limit (120) while the headers report the anonymous limit (60). */
  lemma HeadersUseRequestedTier(s: Store, ip: string, now: int)
    requires MinuteCount(DefaultConfig, s, ip, Some(7), now) == 0
    requires HourCount(DefaultConfig, s, ip, Some(7), now) == 0
    ensures CheckRateLimit(DefaultConfig, s, ip, Some(7), "anonymous", now) == Allowed(120, 120)
    ensures RateLimitHeaders(DefaultConfig, s, ip, Some(7), "anonymous", now).limit == 60
    ensures RateLimitHeaders(DefaultConfig, s, ip, Some(7), "anonymous", now).remaining == 60
  {
    assert CheckedLimits(DefaultConfig, "anonymous", Some(7)) == TierLimits(Some(120), Some(2000));
    assert LimitsFor(DefaultConfig, "anonymous", HeaderFallback) == TierLimits(Some(60), Some(500));
  }
}

=== FILE: risk_scorer.dfy ===
/** The heuristic risk scorer (src/Services/BotDetectionService.php): an
    additive 0..100 score from user-agent patterns, missing headers and the
    client's recent log history, with block and challenge verdicts. */
module RiskScorer {
  import opened Basics
  import opened Settings
  import opened Http
  import opened Whitelist
  import DetectionLog

  // ---------------------------------------------------------------------------
  // User-agent patterns
  // ---------------------------------------------------------------------------

  /** Some pattern occurs in the user agent, both sides lower-cased. */
  function MatchesAnyPattern(patterns: seq<string>, userAgent: string): (b: bool)
    ensures b <==> exists p :: p in patterns && Contains(Lower(userAgent), Lower(p))
  {
    if |patterns| == 0 then false
    else if Contains(Lower(userAgent), Lower(patterns[0])) then
      assert patterns[0] in patterns;
      true
    else
      var rest := MatchesAnyPattern(patterns[1..], userAgent);
      assert forall p :: p in patterns ==> p == patterns[0] || p in patterns[1..];
      assert forall p :: p in patterns[1..] ==> p in patterns;
      rest
  }

  /** `isKnownBot`: the user agent matches the blacklist. */
  predicate IsKnownBot(cfg: Config, userAgent: string) {
    MatchesAnyPattern(cfg.userAgentBlacklist, userAgent)
  }

  /** `isWhitelistedBot`: the user agent matches a legitimate crawler. */
  predicate IsWhitelistedBot(cfg: Config, userAgent: string) {
    MatchesAnyPattern(cfg.userAgentWhitelist, userAgent)
  }

  // ---------------------------------------------------------------------------
  // Signals and score
  // ---------------------------------------------------------------------------

  /** What the scorer observes about one request. */
  datatype Signals = Signals(
    knownBot: bool,
    missingAccept: bool,
    missingAcceptLanguage: bool,
    missingAcceptEncoding: bool,
    missingRefererOnNonGet: bool,
    recentRequests: nat,     // this IP's log entries in the last hour
    recentHighRisk: nat)     // this IP's entries scoring >= 70 in the last 24 hours

  /** Log entries of the IP in the last hour (`byIp($ip)->recent(1)`). */
  function RecentRequestCount(logs: seq<DetectionLog.LogEntry>, ip: string, now: int): nat {
    |DetectionLog.Recent(DetectionLog.ByIp(logs, ip), 1, now)|
  }

  /** High-risk entries of the IP in the last day
      (`byIp($ip)->highRisk(70)->recent(24)`). */
  function RecentHighRiskCount(logs: seq<DetectionLog.LogEntry>, ip: string, now: int): nat {
    |DetectionLog.Recent(DetectionLog.HighRisk(DetectionLog.ByIp(logs, ip), 70), 24, now)|
  }

  function SignalsOf(cfg: Config, logs: seq<DetectionLog.LogEntry>, req: Request, now: int): Signals {
    Signals(
      knownBot := IsKnownBot(cfg, UserAgentText(req)),
      missingAccept := !HasHeader(req, "accept"),
      missingAcceptLanguage := !HasHeader(req, "accept-language"),
      missingAcceptEncoding := !HasHeader(req, "accept-encoding"),
      missingRefererOnNonGet := !HasHeader(req, "referer") && req.verb != "GET",
      recentRequests := RecentRequestCount(logs, req.ip, now),
      recentHighRisk := RecentHighRiskCount(logs, req.ip, now))
  }

  /** Request-frequency tiers: only the highest that applies counts. */
  function FrequencyBonus(recent: nat): int {
    if recent > 100 then 25
    else if recent > 50 then 15
    else if recent > 30 then 10
    else 0
  }

  /** Earlier high-risk entries: 5 points each, at most 20. */
  function HistoryBonus(highRisk: nat): int {
    if highRisk > 0 then (if highRisk * 5 < 20 then highRisk * 5 else 20) else 0
  }

  /** `checkBehavioralPatterns`: never negative and never above 45. */
  function BehavioralScore(sig: Signals): (r: int)
    ensures 0 <= r <= 45
    ensures r == 0 <==> sig.recentRequests <= 30 && sig.recentHighRisk == 0
    ensures sig.recentRequests > 100 ==> r >= 25
    ensures sig.recentHighRisk >= 4 ==> r >= 20
    // the frequency tiers alone: only the highest that applies counts
    ensures sig.recentHighRisk == 0 ==>
      && (30 < sig.recentRequests <= 50 ==> r == 10)
      && (50 < sig.recentRequests <= 100 ==> r == 15)
      && (sig.recentRequests > 100 ==> r == 25)
    // the history alone: 5 points per high-risk entry, capped at 20
    ensures sig.recentRequests <= 30 ==>
      && (sig.recentHighRisk <= 4 ==> r == 5 * sig.recentHighRisk)
      && (sig.recentHighRisk >= 4 ==> r == 20)
  {
    FrequencyBonus(sig.recentRequests) + HistoryBonus(sig.recentHighRisk)
  }

  /** The frequency and history bonuses add up independently of each other. */
  lemma BehavioralScoreAdditive(sig: Signals)
    ensures BehavioralScore(sig)
         == BehavioralScore(sig.(recentHighRisk := 0)) + BehavioralScore(sig.(recentRequests := 0))
  {
  }

  function UserAgentWeight(cfg: Config): int { cfg.weights.suspiciousUserAgent.GetOr(30) }
  function AcceptWeight(cfg: Config): int { cfg.weights.missingAcceptHeader.GetOr(20) }
  function LanguageWeight(cfg: Config): int { cfg.weights.missingAcceptLanguage.GetOr(15) }
  function EncodingWeight(cfg: Config): int { cfg.weights.missingAcceptEncoding.GetOr(10) }
  function RefererWeight(cfg: Config): int { cfg.weights.noReferrer.GetOr(5) }

  predicate NonNegativeWeights(cfg: Config) {
    && UserAgentWeight(cfg) >= 0 && AcceptWeight(cfg) >= 0 && LanguageWeight(cfg) >= 0
    && EncodingWeight(cfg) >= 0 && RefererWeight(cfg) >= 0
  }

  /** The weight of a signal when it fires, 0 otherwise. */
  function FiredWeight(fired: bool, weight: int): int {
    if fired then weight else 0
  }

  /** The score before the cap at 100. */
  function RawScore(cfg: Config, sig: Signals): int {
    FiredWeight(sig.knownBot, UserAgentWeight(cfg))
    + FiredWeight(sig.missingAccept, AcceptWeight(cfg))
    + FiredWeight(sig.missingAcceptLanguage, LanguageWeight(cfg))
    + FiredWeight(sig.missingAcceptEncoding, EncodingWeight(cfg))
    + FiredWeight(sig.missingRefererOnNonGet, RefererWeight(cfg))
    + BehavioralScore(sig)
  }

  /** `calculateRiskScore` on observed signals: the sum of the fired weights
      and the behavioural bonus, capped at 100. Within [0, 100] when the
      weights are not negative. */
  function Score(cfg: Config, sig: Signals): (r: int)
    ensures r <= 100
    ensures r == 100 || r == RawScore(cfg, sig)
    ensures r <= RawScore(cfg, sig)
    ensures NonNegativeWeights(cfg) ==> 0 <= r
  {
    var raw := RawScore(cfg, sig);
    if raw < 100 then raw else 100
  }

  /** `calculateRiskScore(request)`. */
  function CalculateRiskScore(cfg: Config, logs: seq<DetectionLog.LogEntry>, req: Request, now: int): int {
    Score(cfg, SignalsOf(cfg, logs, req, now))
  }

  /** `b` shows every signal `a` shows, and at least as much history. */
  predicate AtLeastAsSuspicious(a: Signals, b: Signals) {
    && (a.knownBot ==> b.knownBot)
    && (a.missingAccept ==> b.missingAccept)
    && (a.missingAcceptLanguage ==> b.missingAcceptLanguage)
    && (a.missingAcceptEncoding ==> b.missingAcceptEncoding)
    && (a.missingRefererOnNonGet ==> b.missingRefererOnNonGet)
    && a.recentRequests <= b.recentRequests
    && a.recentHighRisk <= b.recentHighRisk
  }

  /** More triggering signals never lower the score. */
  lemma ScoreMonotone(cfg: Config, a: Signals, b: Signals)
    requires NonNegativeWeights(cfg) && AtLeastAsSuspicious(a, b)
    ensures Score(cfg, a) <= Score(cfg, b)
  {
    assert FrequencyBonus(a.recentRequests) <= FrequencyBonus(b.recentRequests);
    assert HistoryBonus(a.recentHighRisk) <= HistoryBonus(b.recentHighRisk);
    assert RawScore(cfg, a) <= RawScore(cfg, b);
  }

  // ---------------------------------------------------------------------------
  // Reason
  // ---------------------------------------------------------------------------

  /** The signals `getDetectionReason` can name. The Referer signal and the
      high-risk history are never named. */
  datatype ReasonKind =
    | KnownBotUserAgent
    | MissingAccept
    | MissingAcceptLanguage
    | MissingAcceptEncoding
    | HighFrequency(count: nat)

  /** Position of a reason in evaluation order. */
  function Rank(k: ReasonKind): nat {
    match k
    case KnownBotUserAgent => 0
    case MissingAccept => 1
    case MissingAcceptLanguage => 2
    case MissingAcceptEncoding => 3
    case HighFrequency(_) => 4
  }

  function ReasonText(k: ReasonKind): string {
    match k
    case KnownBotUserAgent => "Known bot user agent"
    case MissingAccept => "Missing Accept header"
    case MissingAcceptLanguage => "Missing Accept-Language header"
    case MissingAcceptEncoding => "Missing Accept-Encoding header"
    case HighFrequency(n) => "High request frequency (" + IntToString(n) + " requests/hour)"
  }

  /** The reasons listed for a request: each named signal exactly when it
      fired, in evaluation order; frequency only above 50 requests. */
  function Reasons(sig: Signals): (r: seq<ReasonKind>)
    ensures RankSorted(r)
    ensures KnownBotUserAgent in r <==> sig.knownBot
    ensures MissingAccept in r <==> sig.missingAccept
    ensures MissingAcceptLanguage in r <==> sig.missingAcceptLanguage
    ensures MissingAcceptEncoding in r <==> sig.missingAcceptEncoding
    ensures forall k :: k in r ==> k.HighFrequency? ==> k == HighFrequency(sig.recentRequests)
    ensures HighFrequency(sig.recentRequests) in r <==> sig.recentRequests > 50
  {
    PrependIf(sig.knownBot, KnownBotUserAgent, AcceptReasons(sig))
  }

  /** The reasons from the Accept header on. */
  function AcceptReasons(sig: Signals): (r: seq<ReasonKind>)
    ensures RankSorted(r) && forall x :: x in r ==> 1 <= Rank(x)
    ensures MissingAccept in r <==> sig.missingAccept
    ensures MissingAcceptLanguage in r <==> sig.missingAcceptLanguage
    ensures MissingAcceptEncoding in r <==> sig.missingAcceptEncoding
    ensures forall k :: k in r ==> k.HighFrequency? ==> k == HighFrequency(sig.recentRequests)
    ensures HighFrequency(sig.recentRequests) in r <==> sig.recentRequests > 50
  {
    PrependIf(sig.missingAccept, MissingAccept, LanguageReasons(sig))
  }

  /** The reasons from the Accept-Language header on. */
  function LanguageReasons(sig: Signals): (r: seq<ReasonKind>)
    ensures RankSorted(r) && forall x :: x in r ==> 2 <= Rank(x)
    ensures MissingAcceptLanguage in r <==> sig.missingAcceptLanguage
    ensures MissingAcceptEncoding in r <==> sig.missingAcceptEncoding
    ensures forall k :: k in r ==> k.HighFrequency? ==> k == HighFrequency(sig.recentRequests)
    ensures HighFrequency(sig.recentRequests) in r <==> sig.recentRequests > 50
  {
    PrependIf(sig.missingAcceptLanguage, MissingAcceptLanguage, EncodingReasons(sig))
  }

  /** The reasons from the Accept-Encoding header on. */
  function EncodingReasons(sig: Signals): (r: seq<ReasonKind>)
    ensures RankSorted(r) && forall x :: x in r ==> 3 <= Rank(x)
    ensures MissingAcceptEncoding in r <==> sig.missingAcceptEncoding
    ensures forall k :: k in r ==> k.HighFrequency? ==> k == HighFrequency(sig.recentRequests)
    ensures HighFrequency(sig.recentRequests) in r <==> sig.recentRequests > 50
  {
    var n := sig.recentRequests;
    PrependIf(sig.missingAcceptEncoding, MissingAcceptEncoding, PrependIf(n > 50, HighFrequency(n), []))
  }

  predicate RankSorted(ks: seq<ReasonKind>) {
    forall i, j :: 0 <= i < j < |ks| ==> Rank(ks[i]) < Rank(ks[j])
  }

  /** Puts `k` in front of `rest` when the signal fired; a reason ranked
      below everything in `rest` keeps the list in evaluation order. */
  function PrependIf(fired: bool, k: ReasonKind, rest: seq<ReasonKind>): (r: seq<ReasonKind>)
    requires RankSorted(rest)
    requires forall x :: x in rest ==> Rank(k) < Rank(x)
    ensures RankSorted(r)
    ensures forall x :: x in r <==> (fired && x == k) || x in rest
    ensures forall x :: x in r ==> Rank(k) <= Rank(x)
  {
    if fired then [k] + rest else rest
  }

  /** The texts of the reasons, position by position. */
  function MapText(ks: seq<ReasonKind>): (r: seq<string>)
    ensures |r| == |ks|
    ensures forall i :: 0 <= i < |ks| ==> r[i] == ReasonText(ks[i])
  {
    if |ks| == 0 then [] else [ReasonText(ks[0])] + MapText(ks[1..])
  }

  /** Some signal that `getDetectionReason` names has fired. */
  predicate NamesSomething(sig: Signals) {
    sig.knownBot || sig.missingAccept || sig.missingAcceptLanguage || sig.missingAcceptEncoding
    || sig.recentRequests > 50
  }

  const ScorePrefix: string := "Risk score: "

  /** `getDetectionReason`: the named reasons joined by ", ", starting with
      the first in evaluation order, or "Risk score: N" when none fired. The
      fallback is never confused with a named reason. */
  function DetectionReason(sig: Signals, score: int): (r: string)
    ensures !NamesSomething(sig) ==> r == ScorePrefix + IntToString(score)
    ensures StartsWith(r, ScorePrefix) <==> !NamesSomething(sig)
    ensures forall k :: k in Reasons(sig) ==> Contains(r, ReasonText(k))
    ensures NamesSomething(sig) ==> StartsWith(r, ReasonText(Reasons(sig)[0]))
  {
    var ks := Reasons(sig);
    NamedIffReasons(sig);
    if |ks| == 0 then
      var r := ScorePrefix + IntToString(score);
      assert r[..|ScorePrefix|] == ScorePrefix;
      r
    else
      JoinedReasons(ks)
  }

  /** A request scored without any named signal is reported by its score. */
  lemma UnnamedVerdictReportsScore(cfg: Config, whitelist: seq<WhitelistEntry>, logs: seq<DetectionLog.LogEntry>,
                                   req: Request, now: int)
    requires !IsWhitelisted(cfg.defaultWhitelist, whitelist, req.ip) && !IsWhitelistedBot(cfg, UserAgentText(req))
    requires !NamesSomething(SignalsOf(cfg, logs, req, now))
    ensures var d := DetectBot(cfg, whitelist, logs, req, now);
      d.reason == ScorePrefix + IntToString(d.riskScore)
  {
  }

  /** A signal is named exactly when the reason list is non-empty. */
  lemma NamedIffReasons(sig: Signals)
    ensures NamesSomething(sig) <==> |Reasons(sig)| > 0
  {
    var ks := Reasons(sig);
    if |ks| > 0 {
      assert ks[0] in ks;
    } else {
      assert HighFrequency(sig.recentRequests) !in ks;
    }
  }

  /** The texts of a non-empty reason list joined by ", ": it begins with the
      first text, contains every text, and never begins like the fallback. */
  function JoinedReasons(ks: seq<ReasonKind>): (r: string)
    requires |ks| > 0
    ensures StartsWith(r, ReasonText(ks[0]))
    ensures forall k :: k in ks ==> Contains(r, ReasonText(k))
    ensures !StartsWith(r, ScorePrefix)
  {
    var texts := MapText(ks);
    var r := Join(texts, ", ");
    JoinHasEveryPart(texts, ", ");
    forall k | k in ks
      ensures Contains(r, ReasonText(k))
    {
      var i :| 0 <= i < |ks| && ks[i] == k;
      assert texts[i] == ReasonText(k);
    }
    ReasonTextInitial(ks[0]);
    assert !StartsWith(r, ScorePrefix) by {
      assert r[0] == ReasonText(ks[0])[0];
      assert ScorePrefix[0] == 'R';
    }
    r
  }

  /** No reason text begins like the score fallback. */
  lemma ReasonTextInitial(k: ReasonKind)
    ensures |ReasonText(k)| > 0 && ReasonText(k)[0] != 'R'
  {
    match k
    case HighFrequency(n) =>
      assert ReasonText(k)[0] == "High request frequency ("[0];
    case _ =>
  }

  // ---------------------------------------------------------------------------
  // detectBot
  // ---------------------------------------------------------------------------

  datatype Detection = Detection(
    isBot: bool,
    riskScore: int,
    reason: string,
    shouldBlock: bool,
    shouldChallenge: bool)

  /** `detectBot`: a whitelisted IP short-circuits first, then a legitimate
      crawler user agent (which wins over the blacklist); otherwise the score
      decides: block at or above the risk threshold, challenge from the CAPTCHA
      threshold up to (excluding) the risk threshold, never both. */
  function DetectBot(cfg: Config, whitelist: seq<WhitelistEntry>, logs: seq<DetectionLog.LogEntry>,
                     req: Request, now: int): (d: Detection)
    ensures IsWhitelisted(cfg.defaultWhitelist, whitelist, req.ip) ==>
      d == Detection(false, 0, "Whitelisted IP", false, false)
    ensures !IsWhitelisted(cfg.defaultWhitelist, whitelist, req.ip) && IsWhitelistedBot(cfg, UserAgentText(req)) ==>
      d == Detection(true, 0, "Legitimate crawler", false, false)
    ensures !IsWhitelisted(cfg.defaultWhitelist, whitelist, req.ip) && !IsWhitelistedBot(cfg, UserAgentText(req)) ==>
      && d.riskScore == CalculateRiskScore(cfg, logs, req, now)
      && (d.shouldBlock <==> d.riskScore >= cfg.riskThreshold)
      && (d.isBot <==> d.shouldBlock)
      && (d.shouldChallenge <==> cfg.captchaTriggerThreshold <= d.riskScore < cfg.riskThreshold)
      && d.reason == DetectionReason(SignalsOf(cfg, logs, req, now), d.riskScore)
    ensures !(d.shouldBlock && d.shouldChallenge)
    ensures d.shouldBlock ==> d.riskScore >= cfg.riskThreshold
    ensures d.shouldChallenge ==> cfg.captchaTriggerThreshold <= d.riskScore < cfg.riskThreshold
    ensures d.riskScore <= 100
    ensures NonNegativeWeights(cfg) ==> d.riskScore >= 0
  {
    if IsWhitelisted(cfg.defaultWhitelist, whitelist, req.ip) then
      Detection(false, 0, "Whitelisted IP", false, false)
    else if IsWhitelistedBot(cfg, UserAgentText(req)) then
      Detection(true, 0, "Legitimate crawler", false, false)
    else
      var sig := SignalsOf(cfg, logs, req, now);
      var score := Score(cfg, sig);
      Detection(
        isBot := score >= cfg.riskThreshold,
        riskScore := score,
        reason := DetectionReason(sig, score),
        shouldBlock := score >= cfg.riskThreshold,
        shouldChallenge := score >= cfg.captchaTriggerThreshold && score < cfg.riskThreshold)
  }

  // ---------------------------------------------------------------------------
  // logDetection
  // ---------------------------------------------------------------------------

  /** Whether `logDetection` writes an entry for this score. */
  predicate ShouldLog(cfg: Config, riskScore: int) {
    cfg.logAllRequests || riskScore >= cfg.minRiskScoreToLog
  }

  /** `logDetection`: appends exactly one entry when logging everything or
      when the score reaches the minimum; otherwise the log is unchanged. A
      request without a User-Agent header is recorded as "Unknown". */
  function LogDetection(cfg: Config, logs: seq<DetectionLog.LogEntry>, req: Request, riskScore: int,
                        reason: string, action: DetectionLog.LogAction, now: int)
    : (r: seq<DetectionLog.LogEntry>)
    ensures |r| == if ShouldLog(cfg, riskScore) then |logs| + 1 else |logs|
    ensures r[..|logs|] == logs
    ensures |r| > |logs| ==>
      var e := r[|logs|];
      && e.ip == req.ip && e.userId == req.userId && e.riskScore == riskScore
      && e.reason == reason && e.action == action && e.createdAt == now
      && e.url == req.url && e.verb == req.verb && e.headers == req.headers
      && e.userAgent == (if UserAgent(req).Some? then UserAgent(req).value else "Unknown")
  {
    if !ShouldLog(cfg, riskScore) then logs
    else
      logs + [DetectionLog.LogEntry(req.ip, req.userId, UserAgent(req).GetOr("Unknown"), req.url, req.verb,
                                    reason, riskScore, req.headers, action, now)]
  }

  // ---------------------------------------------------------------------------
  // A worked example
  // ---------------------------------------------------------------------------

  /** The signals a bare `curl` GET shows: a known bot user agent, all
      three Accept* headers missing, no Referer signal (GET), no history. */
  predicate BareCurlSignals(sig: Signals) {
    && sig.knownBot && sig.missingAccept && sig.missingAcceptLanguage && sig.missingAcceptEncoding
    && !sig.missingRefererOnNonGet && sig.recentRequests == 0 && sig.recentHighRisk == 0
  }

  /** With the shipped weights, such a request scores 30 + 20 + 15 + 10 = 75,
      which is at or above the shipped risk threshold of 70, and its reason
      names the user agent and the three headers, in that order. */
  lemma BareCurlVerdict(cfg: Config, sig: Signals)
    requires cfg.weights == SignalWeights(Some(30), Some(20), Some(15), Some(10), Some(5))
    requires BareCurlSignals(sig)
    ensures Score(cfg, sig) == 75
    ensures Reasons(sig) == [KnownBotUserAgent, MissingAccept, MissingAcceptLanguage, MissingAcceptEncoding]
  {
    assert BehavioralScore(sig) == 0;
  }

  /** Hence, with the shipped weights and thresholds, a request from an IP
      that is not whitelisted, not matching a legitimate crawler and showing
      those signals is blocked, not challenged. */
  lemma BareCurlIsBlocked(cfg: Config, whitelist: seq<WhitelistEntry>, logs: seq<DetectionLog.LogEntry>,
                          req: Request, now: int)
    requires cfg.weights == SignalWeights(Some(30), Some(20), Some(15), Some(10), Some(5))
    requires cfg.riskThreshold == 70 && cfg.captchaTriggerThreshold == 60
    requires !IsWhitelisted(cfg.defaultWhitelist, whitelist, req.ip)
    requires !IsWhitelistedBot(cfg, UserAgentText(req))
    requires BareCurlSignals(SignalsOf(cfg, logs, req, now))
    ensures var d := DetectBot(cfg, whitelist, logs, req, now);
      d.isBot && d.shouldBlock && !d.shouldChallenge && d.riskScore == 75
  {
    BareCurlVerdict(cfg, SignalsOf(cfg, logs, req, now));
  }

  /** The user agent of a stock `curl` invocation. */
  const CurlUserAgent: string := "curl/7.68.0"

  /** A needle holding a character the haystack lacks occurs nowhere in it. */
  lemma AbsentCharRulesOut(s: string, sub: string, c: char)
    requires c in sub && c !in s
    ensures !Contains(s, sub)
  {
    var k :| 0 <= k < |sub| && sub[k] == c;
    forall i | 0 <= i <= |s| - |sub|
      ensures !OccursAt(s, sub, i)
    {
      assert s[i..i + |sub|][k] == s[i + k];
    }
  }

  /** The characters of the curl user agent, one by one. */
  lemma CurlUserAgentChars()
    ensures |CurlUserAgent| == 11
    ensures && CurlUserAgent[0] == 'c' && CurlUserAgent[1] == 'u' && CurlUserAgent[2] == 'r'
            && CurlUserAgent[3] == 'l' && CurlUserAgent[4] == '/' && CurlUserAgent[5] == '7'
            && CurlUserAgent[6] == '.' && CurlUserAgent[7] == '6' && CurlUserAgent[8] == '8'
            && CurlUserAgent[9] == '.' && CurlUserAgent[10] == '0'
  {
  }

  /** A string without upper-case letters is its own lower-casing. */
  lemma LowerKeepsLowerCase(s: string)
    requires forall k :: 0 <= k < |s| ==> !('A' <= s[k] <= 'Z')
    ensures Lower(s) == s
  {
  }

  /** The curl user agent is already lower-case. */
  lemma CurlUserAgentIsLower()
    ensures Lower(CurlUserAgent) == CurlUserAgent
  {
    CurlUserAgentHasNoUpper();
    LowerKeepsLowerCase(CurlUserAgent);
  }

  lemma CurlUserAgentHasNoUpper()
    ensures forall k :: 0 <= k < |CurlUserAgent| ==> !('A' <= CurlUserAgent[k] <= 'Z')
  {
    CurlUserAgentChars();
  }

  /** A pattern whose `k`-th letter, lower-cased, is none of the curl user
      agent's characters does not match it. */
  lemma CurlMissesPattern(p: string, k: nat)
    requires k < |p| && LowerChar(p[k]) !in CurlAlphabet
    ensures !Contains(CurlUserAgent, Lower(p))
  {
    CurlUserAgentAlphabet();
    var c := LowerChar(p[k]);
    assert c !in CurlUserAgent;
    assert Lower(p)[k] == c;
    AbsentCharRulesOut(CurlUserAgent, Lower(p), c);
  }

  /** The characters the curl user agent is made of. */
  const CurlAlphabet: set<char> := {'c', 'u', 'r', 'l', '/', '.', '0', '6', '7', '8'}

  lemma CurlUserAgentAlphabet()
    ensures forall j :: 0 <= j < |CurlUserAgent| ==> CurlUserAgent[j] in CurlAlphabet
  {
    CurlUserAgentChars();
  }

  /** With the shipped lists, "curl/7.68.0" matches the blacklist entry
      "curl" ... */
  lemma CurlIsKnownBot(cfg: Config)
    requires cfg.userAgentBlacklist == DefaultBlacklist
    ensures IsKnownBot(cfg, CurlUserAgent)
  {
    var bl := cfg.userAgentBlacklist;
    assert bl[0] == "curl";
    CurlNamesCurl();
    PatternWitness(bl, CurlUserAgent, 0);
  }

  /** The curl user agent starts with "curl". */
  lemma CurlNamesCurl()
    ensures Contains(Lower(CurlUserAgent), Lower("curl"))
  {
    CurlUserAgentIsLower();
    CurlPatternIsLower();
    CurlStartsWithCurl();
  }

  lemma CurlPatternIsLower()
    ensures Lower("curl") == "curl"
  {
  }

  lemma CurlStartsWithCurl()
    ensures Contains(CurlUserAgent, "curl")
  {
    CurlUserAgentChars();
    PrefixOccurs(CurlUserAgent, "curl");
  }

  /** A prefix occurs in the string. */
  lemma PrefixOccurs(s: string, sub: string)
    requires |sub| <= |s| && s[..|sub|] == sub
    ensures Contains(s, sub)
  {
    assert OccursAt(s, sub, 0);
  }

  /** One matching pattern is enough. */
  lemma PatternWitness(patterns: seq<string>, userAgent: string, i: nat)
    requires i < |patterns| && Contains(Lower(userAgent), Lower(patterns[i]))
    ensures MatchesAnyPattern(patterns, userAgent)
  {
    assert patterns[i] in patterns;
  }

  /** ... and none of the legitimate crawlers: each crawler name holds a
      letter the curl user agent lacks. */
  lemma CurlIsNotLegitimate(cfg: Config)
    requires cfg.userAgentWhitelist == DefaultUserAgentWhitelist
    ensures !IsWhitelistedBot(cfg, CurlUserAgent)
  {
    var wl := cfg.userAgentWhitelist;
    CurlUserAgentIsLower();
    // "Googlebot" has an 'o', "Slurp" a 'p', "DuckDuckBot" a 'k', "YandexBot"
    // an 'a', "LinkedInBot" an 'i'; the others start with a foreign letter
    CurlMissesAll(wl, [1, 0, 4, 3, 0, 1, 0, 1, 0]);
  }

  /** Patterns that each hold, at the given index, a letter foreign to the
      curl user agent all miss it. */
  lemma CurlMissesAll(patterns: seq<string>, foreign: seq<nat>)
    requires |foreign| == |patterns|
    requires forall i :: 0 <= i < |patterns| ==>
      foreign[i] < |patterns[i]| && LowerChar(patterns[i][foreign[i]]) !in CurlAlphabet
    ensures forall i :: 0 <= i < |patterns| ==> !Contains(CurlUserAgent, Lower(patterns[i]))
  {
    forall i | 0 <= i < |patterns|
      ensures !Contains(CurlUserAgent, Lower(patterns[i]))
    {
      CurlMissesPattern(patterns[i], foreign[i]);
    }
  }

  /** A lone header answers no lookup of another name. */
  lemma LoneHeaderLookup(h: Header, name: string)
    requires h.name != name
    ensures HeaderValue([h], name).None?
  {
  }

  /** A GET request whose only header is the curl user agent. */
  function CurlRequest(ip: string, url: string): Request {
    Request(ip, "GET", url, [Header("user-agent", CurlUserAgent)], None, false)
  }

  /** Such a request shows the signals of a bare `curl` call whenever the
      log holds no entry of its IP. */
  lemma CurlRequestSignals(cfg: Config, logs: seq<DetectionLog.LogEntry>, ip: string, url: string, now: int)
    requires cfg.userAgentBlacklist == DefaultBlacklist && cfg.userAgentWhitelist == DefaultUserAgentWhitelist
    requires cfg.weights == SignalWeights(Some(30), Some(20), Some(15), Some(10), Some(5))
    requires cfg.riskThreshold == 70 && cfg.captchaTriggerThreshold == 60
    requires forall e :: e in logs ==> e.ip != ip
    ensures BareCurlSignals(SignalsOf(cfg, logs, CurlRequest(ip, url), now))
  {
    CurlHeaderSignals(cfg, ip, url);
    NoHistoryNoCounts(logs, ip, now);
  }

  /** The header half: a known bot naming no Accept* header, on a GET. */
  lemma CurlHeaderSignals(cfg: Config, ip: string, url: string)
    requires cfg.userAgentBlacklist == DefaultBlacklist
    ensures var req := CurlRequest(ip, url);
      && IsKnownBot(cfg, UserAgentText(req))
      && !HasHeader(req, "accept") && !HasHeader(req, "accept-language") && !HasHeader(req, "accept-encoding")
      && req.verb == "GET"
  {
    var req := CurlRequest(ip, url);
    assert UserAgentText(req) == CurlUserAgent;
    CurlIsKnownBot(cfg);
    LoneHeaderLookup(req.headers[0], "accept");
    LoneHeaderLookup(req.headers[0], "accept-language");
    LoneHeaderLookup(req.headers[0], "accept-encoding");
  }

  /** The history half: an IP absent from the log has no recent entries. */
  lemma NoHistoryNoCounts(logs: seq<DetectionLog.LogEntry>, ip: string, now: int)
    requires forall e :: e in logs ==> e.ip != ip
    ensures RecentRequestCount(logs, ip, now) == 0 && RecentHighRiskCount(logs, ip, now) == 0
  {
    assert DetectionLog.ByIp(logs, ip) == [];
  }

  /** Hence a plain `curl` GET, under the shipped scoring settings (such as
      DefaultConfig), from an IP that is not whitelisted and has no log
      history, is blocked, not challenged, with a score of 75 ... */
  lemma CurlRequestIsBlocked(cfg: Config, whitelist: seq<WhitelistEntry>, logs: seq<DetectionLog.LogEntry>,
                             ip: string, url: string, now: int)
    requires cfg.userAgentBlacklist == DefaultBlacklist && cfg.userAgentWhitelist == DefaultUserAgentWhitelist
    requires cfg.weights == SignalWeights(Some(30), Some(20), Some(15), Some(10), Some(5))
    requires cfg.riskThreshold == 70 && cfg.captchaTriggerThreshold == 60
    requires !IsWhitelisted(cfg.defaultWhitelist, whitelist, ip)
    requires forall e :: e in logs ==> e.ip != ip
    ensures var d := DetectBot(cfg, whitelist, logs, CurlRequest(ip, url), now);
      d.isBot && d.shouldBlock && !d.shouldChallenge && d.riskScore == 75
  {
    var req := CurlRequest(ip, url);
    CurlRequestSignals(cfg, logs, ip, url, now);
    assert UserAgentText(req) == CurlUserAgent;
    CurlIsNotLegitimate(cfg);
    BareCurlIsBlocked(cfg, whitelist, logs, req, now);
  }

  /** ... and a reason that names the user agent first. */
  lemma CurlReasonNamesUserAgent(cfg: Config, whitelist: seq<WhitelistEntry>, logs: seq<DetectionLog.LogEntry>,
                                 ip: string, url: string, now: int)
    requires cfg.userAgentBlacklist == DefaultBlacklist && cfg.userAgentWhitelist == DefaultUserAgentWhitelist
    requires cfg.weights == SignalWeights(Some(30), Some(20), Some(15), Some(10), Some(5))
    requires cfg.riskThreshold == 70 && cfg.captchaTriggerThreshold == 60
    requires !IsWhitelisted(cfg.defaultWhitelist, whitelist, ip)
    requires forall e :: e in logs ==> e.ip != ip
    ensures StartsWith(DetectBot(cfg, whitelist, logs, CurlRequest(ip, url), now).reason,
                       ReasonText(KnownBotUserAgent))
  {
    var req := CurlRequest(ip, url);
    CurlRequestSignals(cfg, logs, ip, url, now);
    assert UserAgentText(req) == CurlUserAgent;
    CurlIsNotLegitimate(cfg);
    BareCurlVerdict(cfg, SignalsOf(cfg, logs, req, now));
  }

}

=== FILE: settings.dfy ===
/** The package configuration (src/Config/anti-crawler.php) as one immutable
    record. Values the PHP code reads with a fallback (`?? 30`,
    `config(key, default)`) are kept optional here where the fallback can be
    observed; the fallbacks themselves live next to the code that applies them. */
module Settings {
  import opened Basics

  /** One rate-limit tier; `per_hour` is absent for several tiers. */
  datatype TierLimits = TierLimits(perMinute: Option<int>, perHour: Option<int>)

  /** `detection.suspicious_patterns`: the weight of each request signal. */
  datatype SignalWeights = SignalWeights(
    suspiciousUserAgent: Option<int>,
    missingAcceptHeader: Option<int>,
    missingAcceptLanguage: Option<int>,
    missingAcceptEncoding: Option<int>,
    noReferrer: Option<int>)

  datatype Config = Config(
    enabled: bool,
    rateLimits: map<string, TierLimits>,
    userAgentBlacklist: seq<string>,
    userAgentWhitelist: seq<string>,
    riskThreshold: int,
    autoBlockThreshold: int,
    autoBlockDuration: int,        // minutes
    weights: SignalWeights,
    captchaEnabled: bool,
    provider: string,
    siteKey: string,               // both keys are assumed set to strings (see README)
    secretKey: string,
    captchaTriggerThreshold: int,
    verifyUrls: map<string, string>,
    logAllRequests: bool,
    minRiskScoreToLog: int,
    redisPrefix: string,
    defaultWhitelist: seq<string>)

  const DefaultRateLimits: map<string, TierLimits> := map[
    "anonymous" := TierLimits(Some(60), Some(500)),
    "authenticated" := TierLimits(Some(120), Some(2000)),
    "chapter_reading" := TierLimits(Some(10), None),
    "search" := TierLimits(Some(20), None),
    "api" := TierLimits(Some(30), Some(1000))
  ]

  const DefaultBlacklist: seq<string> := [
    "curl", "wget", "python-requests", "scrapy", "bot", "crawler",
    "spider", "scraper", "headless", "phantomjs", "selenium", "webdriver"
  ]

  const DefaultUserAgentWhitelist: seq<string> := [
    "Googlebot", "Bingbot", "Slurp", "DuckDuckBot", "Baiduspider",
    "YandexBot", "facebookexternalhit", "LinkedInBot", "Twitterbot"
  ]

  const DefaultVerifyUrls: map<string, string> := map[
    "turnstile" := "https://challenges.cloudflare.com/turnstile/v0/siteverify",
    "recaptcha_v2" := "https://www.google.com/recaptcha/api/siteverify",
    "recaptcha_v3" := "https://www.google.com/recaptcha/api/siteverify",
    "hcaptcha" := "https://hcaptcha.com/siteverify"
  ]

  /** The shipped configuration with no environment overrides. */
  const DefaultConfig: Config := Config(
    enabled := true,
    rateLimits := DefaultRateLimits,
    userAgentBlacklist := DefaultBlacklist,
    userAgentWhitelist := DefaultUserAgentWhitelist,
    riskThreshold := 70,
    autoBlockThreshold := 5,
    autoBlockDuration := 60,
    weights := SignalWeights(Some(30), Some(20), Some(15), Some(10), Some(5)),
    captchaEnabled := true,
    provider := "turnstile",
    siteKey := "",
    secretKey := "",
    captchaTriggerThreshold := 60,
    verifyUrls := DefaultVerifyUrls,
    logAllRequests := false,
    minRiskScoreToLog := 50,
    redisPrefix := "anti_crawler:",
    defaultWhitelist := ["127.0.0.1", "::1"])
}

=== FILE: whitelist.dfy ===
/** The IP allow list (src/Models/IpWhitelist.php): persisted rows, keyed by
    IP address, unioned at lookup time with the configured default list. */
module Whitelist {
  import opened Basics

  datatype WhitelistEntry = WhitelistEntry(
    ip: string,
    description: Option<string>,
    createdBy: Option<int>)

  function EntryIp(e: WhitelistEntry): string {
    e.ip
  }

  /** The table never holds two rows for one IP. */
  predicate WellFormed(rows: seq<WhitelistEntry>) {
    UniqueKeys(rows, EntryIp)
  }

  /** `isWhitelisted`: a persisted row matches, or the IP is in the default
      list; both by exact string equality. */
  function IsWhitelisted(defaults: seq<string>, rows: seq<WhitelistEntry>, ip: string): (b: bool)
    ensures b <==> (exists e :: e in rows && e.ip == ip) || ip in defaults
    ensures ip in defaults ==> b
  {
    var hit := FirstIndex(rows, (e: WhitelistEntry) => e.ip == ip);
    assert hit.None? ==> forall e :: e in rows ==> e.ip != ip by {
      if hit.None? {
        forall e | e in rows ensures e.ip != ip {
          var j :| 0 <= j < |rows| && rows[j] == e;
        }
      }
    }
    hit.Some? || ip in defaults
  }

  /** `addIp`: an upsert keyed by IP; description and creator are replaced. */
  function AddIp(rows: seq<WhitelistEntry>, ip: string, description: Option<string>, userId: Option<int>)
    : (r: seq<WhitelistEntry>)
    ensures forall defaults :: IsWhitelisted(defaults, r, ip)
    ensures forall e :: e in rows && e.ip != ip ==> e in r
    ensures forall e :: e in r && e.ip != ip ==> e in rows
    ensures WellFormed(rows) ==> WellFormed(r)
    ensures WellFormed(rows) ==>
      forall e :: e in r && e.ip == ip ==> e == WhitelistEntry(ip, description, userId)
  {
    Upsert(rows, EntryIp, WhitelistEntry(ip, description, userId))
  }

  /** `removeIp`: deletes every row for the IP. The IP stays whitelisted
      exactly when the default list names it. */
  function RemoveIp(rows: seq<WhitelistEntry>, ip: string): (r: seq<WhitelistEntry>)
    ensures forall defaults :: IsWhitelisted(defaults, r, ip) <==> ip in defaults
    ensures forall e :: e in r <==> e in rows && e.ip != ip
    ensures WellFormed(rows) ==> WellFormed(r)
  {
    var r := Filter(rows, (e: WhitelistEntry) => e.ip != ip);
    assert WellFormed(rows) ==> WellFormed(r) by {
      if WellFormed(rows) {
        SubsequenceKeepsUniqueKeys(r, rows, EntryIp);
      }
    }
    r
  }
}
